=== FILE: README.md ===
# Obscura thumbnail policy in Dafny

Obscura (BoxUK) makes thumbnails of JPEG, GIF and PNG images with PHP's GD
extension. This project models its sizing and compositing policy with the
pixels abstracted away. An image is its geometry: a width, a height and its
decorator variant (JPEG, GIF or PNG).

The model has these parts:

- **ColorParser** turns a mount colour into four RGBA values. The colour is
  an array of three or four values, or a hex string of which only the first
  seven characters are examined.
- **Config** is the thumbnail configuration. It has thirteen properties with
  their defaults and thirteen fail-fast setters.
- **AbstractDecorator** holds the shared geometry:
  - `load`, `resize`, `crop` and `mount`
  - the centring offsets
  - the `output` dispatch to another format's decorator
  - `getOrientation`, `toArray` and the proportional-size calculation
- **Factory** maps an `IMAGETYPE_*` tag to a decorator. It also runs the
  error cascade of `loadImageFromFile`.
- **ThumbnailFactory** is the orchestrator:
  - its directory setters
  - input-path resolution
  - the output filename and its extension
  - the cache freshness check
  - crop or resize, the resize precedence (both dimensions, size constraint,
    aspect lock) and mount defaulting
  - `createThumbnail`, which strings these together

Some PHP behaviour is made explicit:

- PHP's dynamic arguments are the tagged `Php.PhpValue`.
- `empty()`, truthiness, `strlen` and `intval` are written out. A zero width
  counts as unset, as it does in `if ($width)`.
- Every exception becomes an `Errors.Error` in a `Result`.
  `Error.IsInvalidArgument` tells `\InvalidArgumentException` apart from
  the library's own `Exception`.

A decorator changes in place. `load` returns `$this`, so `resize`, `crop` and
`mount` return their receiver. The model returns the updated image geometry
instead, and a later operation starts from it.

The image library, the filesystem, the clock, `md5(serialize($config))` and
the encoder's success flag are inputs:

- the filesystem is a map from path to entry (`Files.FileSystem`);
- the GD extension check is a boolean;
- `createThumbnail` takes an `Env` with the digest function, the encoder's
  success flag and the time a write stamps;
- a canvas of non-positive size cannot be allocated. `load(false)` then fails
  in `setImage`, so a resize to zero is an error.

Where the written description of the library and its code differ, the model
follows the code:

- A string colour is accepted when the first seven characters contain six
  consecutive hex digits anywhere, because the regular expression is not
  anchored. It is not limited to "six hex digits after an optional `#`".
- `resize`, `crop` and `mount` update the receiver. They do not create a new
  decorator.

## Model

| member | source | states |
|---|---|---|
| ColorParser.GetRgbaValuesFromColor | lib/BoxUK/Obscura/ColorParser.php:24-43 | A value that is neither an array nor a string throws InvalidArgumentException. An array succeeds iff it has 3 or 4 elements. A string succeeds iff its first seven characters match `#*` followed by six hex digits somewhere. Every success has exactly four elements and every failure is an InvalidArgumentException. |
| ColorParser.ParseArrayForRgbaValues | lib/BoxUK/Obscura/ColorParser.php:52-68 | An array yields a result iff it has 3 or 4 elements, and the result always has four. |
| ColorParser.ArraysKeepTheirValues | lib/BoxUK/Obscura/ColorParser.php:52-68 | An accepted array comes back with its values in positional order: keys dropped, no range check, and a 0 alpha appended to a three-element array. |
| ColorParser.ParseStringForRgbaValues | lib/BoxUK/Obscura/ColorParser.php:77-85 | A string yields a result exactly when the hex-colour test accepts it. |
| ColorParser.IsHexadecimalColor | lib/BoxUK/Obscura/ColorParser.php:117-123 | The left-to-right scan for a run of six hex digits accepts exactly the strings whose first seven characters match the unanchored regular expression. |
| ColorParser.HasHexRunIsRegexMatch | lib/BoxUK/Obscura/ColorParser.php:117-123 | Finding six consecutive hex digits is equivalent to matching the unanchored regular expression, since any run of `#` (including none) may precede them. |
| ColorParser.StringAcceptedIffHexWindow | lib/BoxUK/Obscura/ColorParser.php:77-85 | A string colour is accepted iff its first seven characters contain six consecutive hex digits. |
| ColorParser.HexadecimalStringToRgbArray | lib/BoxUK/Obscura/ColorParser.php:94-106 | The result has four integers: three channels in 0..255 and an alpha of 0. |
| ColorParser.KeepHexDigits | lib/BoxUK/Obscura/ColorParser.php:98 | What `hexdec` reads: only hex digits, and a string of hex digits unchanged. |
| ColorParser.KeepHexDigitsAppend | lib/BoxUK/Obscura/ColorParser.php:98 | The digits `hexdec` reads from a concatenation are the digits of each part, in order. |
| ColorParser.KeepHexDigitsOfChar | lib/BoxUK/Obscura/ColorParser.php:98 | A single character is read exactly when it is a hex digit. |
| ColorParser.HexDecSkipsNonHex | lib/BoxUK/Obscura/ColorParser.php:98 | Inserting a non-hex character anywhere in a string does not change the number `hexdec` reads from it. |
| ColorParser.RemoveHashes | lib/BoxUK/Obscura/ColorParser.php:96 | No `#` remains, and a string without `#` is unchanged. |
| ColorParser.RemoveHashesAppend | lib/BoxUK/Obscura/ColorParser.php:96 | Removing `#` from a concatenation removes it from each part and keeps the rest in order. |
| ColorParser.RemoveHashesOfChar | lib/BoxUK/Obscura/ColorParser.php:96 | A single character survives exactly when it is not `#`. |
| ColorParser.Channel | lib/BoxUK/Obscura/ColorParser.php:101-103 | Masking a shifted value with 0xFF gives a channel in 0..255. |
| ColorParser.HexValue | lib/BoxUK/Obscura/ColorParser.php:98 | The value of n hex digits is below 16^n. |
| ColorParser.HexValueAppend | lib/BoxUK/Obscura/ColorParser.php:98 | The value of concatenated hex digits is the value of the first part shifted by the second part's length, plus the value of the second part. |
| ColorParser.ChannelsOf | lib/BoxUK/Obscura/ColorParser.php:100-105 | Shifting by 16, 8 and 0 and masking recovers r, g and b from r·65536 + g·256 + b. |
| ColorParser.HexColorRoundTrip | lib/BoxUK/Obscura/ColorParser.php:94-106 | Any (r, g, b) written as six hex digits, with or without a leading `#`, parses back to [r, g, b, 0]. |
| ColorParser.LeadingJunkIsSkipped | lib/BoxUK/Obscura/ColorParser.php:94-123 | Six hex digits of (r, g, b) behind one character that is neither a digit nor `#` are accepted and parse to [r, g, b, 0]: the pattern is unanchored and `hexdec` skips the stray character. |
| ColorParser.TrailingHashIsDropped | lib/BoxUK/Obscura/ColorParser.php:94-123 | Six hex digits of (r, g, b) followed by `#` are accepted and parse to [r, g, b, 0]. |
| ColorParser.TestedHexColors | tests/php/BoxUK/Obscura/ColorParserTest.php:67-91 | "FF9900" gives (255,153,0,0) and "#CCCCCC" gives (204,204,204,0). |
| ColorParser.TestedNonsense | tests/php/BoxUK/Obscura/ColorParserTest.php:94-99 | "somenonsensestring" is rejected. |
| ColorParser.TestedArrayLengths | tests/php/BoxUK/Obscura/ColorParserTest.php:34-60 | Arrays of 2 and 5 elements are rejected, and a 3-element array gets a 0 appended. |
| ThumbnailConfig.New | lib/BoxUK/Obscura/ThumbnailFactory/Config.php:33-107 | A new config has aspect lock on, mount off, a white [255,255,255] mount colour, quality 100 and caching off. Every other property is null. |
| ThumbnailConfig.SetWidth | lib/BoxUK/Obscura/ThumbnailFactory/Config.php:129-137 | Accepts exactly an int (any sign) or null. On success only the width changes and its getter returns the argument. Otherwise it throws InvalidArgumentException and the config is unchanged. |
| ThumbnailConfig.SetHeight | lib/BoxUK/Obscura/ThumbnailFactory/Config.php:155-163 | As SetWidth, for the height. |
| ThumbnailConfig.SetAspectRatioLock | lib/BoxUK/Obscura/ThumbnailFactory/Config.php:182-190 | Accepts exactly a boolean. The rest is as SetWidth. |
| ThumbnailConfig.SetSizeConstraint | lib/BoxUK/Obscura/ThumbnailFactory/Config.php:209-217 | Accepts exactly an int or null. The rest is as SetWidth. |
| ThumbnailConfig.SetMountEnabled | lib/BoxUK/Obscura/ThumbnailFactory/Config.php:235-243 | Accepts exactly a boolean. The rest is as SetWidth. |
| ThumbnailConfig.SetMountWidth | lib/BoxUK/Obscura/ThumbnailFactory/Config.php:261-270 | Accepts exactly an int or null. The rest is as SetWidth. |
| ThumbnailConfig.SetMountHeight | lib/BoxUK/Obscura/ThumbnailFactory/Config.php:288-296 | Accepts exactly an int or null. The rest is as SetWidth. |
| ThumbnailConfig.SetMountColor | lib/BoxUK/Obscura/ThumbnailFactory/Config.php:314-322 | Accepts exactly an array or string that is not `empty()`, so "" and "0" fail. It is stored verbatim and not parsed. |
| ThumbnailConfig.SetInputFilename | lib/BoxUK/Obscura/ThumbnailFactory/Config.php:338-346 | Accepts exactly a string that is not `empty()`. |
| ThumbnailConfig.SetOutputFilename | lib/BoxUK/Obscura/ThumbnailFactory/Config.php:362-370 | Accepts every value, because its guard asks for a value that is both a string and not a string. |
| ThumbnailConfig.SetImageType | lib/BoxUK/Obscura/ThumbnailFactory/Config.php:391-402 | Accepts exactly the int tags of GIF, JPEG and PNG. |
| ThumbnailConfig.SetImageQuality | lib/BoxUK/Obscura/ThumbnailFactory/Config.php:421-429 | Accepts exactly an int in 0..100. |
| ThumbnailConfig.SetCachingEnabled | lib/BoxUK/Obscura/ThumbnailFactory/Config.php:447-455 | Accepts exactly a boolean. |
| ThumbnailConfig.Set | lib/BoxUK/Obscura/ThumbnailFactory/Config.php:129-455 | Every setter meets the common contract: it succeeds iff the reference acceptance table admits the argument, the getter returns what was set, other properties are unchanged, and a refusal throws an InvalidArgumentException naming the property. |
| ThumbnailConfig.SetOrKeep | lib/BoxUK/Obscura/ThumbnailFactory/Config.php:129-136 | A refused set leaves the config as it was. An accepted set changes only its own property. |
| ThumbnailConfig.NewIsValid | lib/BoxUK/Obscura/ThumbnailFactory/Config.php:33-107 | The defaults satisfy the config invariant. |
| ThumbnailConfig.SetPreservesValid | lib/BoxUK/Obscura/ThumbnailFactory/Config.php:129-455 | No sequence of setter calls breaks the invariant: every property holds its default or an accepted value. |
| ThumbnailConfig.ValidFacts | lib/BoxUK/Obscura/ThumbnailFactory/Config.php:314-429 | Under the invariant, the image type is null or supported, the quality is in 0..100, the mount colour is a non-empty array or string, and the input name is a non-empty string. |
| ThumbnailConfig.IntegerSettersTakeAnyInt | lib/BoxUK/Obscura/ThumbnailFactory/Config.php:129-296 | The width, height, size-constraint and mount-size setters accept every int, including 0 and negatives. |
| ThumbnailConfig.SetOutputFilenameNeverThrows | lib/BoxUK/Obscura/ThumbnailFactory/Config.php:362-370 | Setting the output filename always succeeds and stores the argument. |
| ThumbnailConfig.TestedTypeChecks | tests/php/BoxUK/Obscura/ThumbnailFactory/ConfigTest.php:28-125 | The test suite's width, height, lock and constraint cases. |
| ThumbnailConfig.TestedColorsAndNames | tests/php/BoxUK/Obscura/ThumbnailFactory/ConfigTest.php:208-268 | The test suite's mount-colour and input-filename cases. |
| ThumbnailConfig.TestedTypesAndQualities | tests/php/BoxUK/Obscura/ThumbnailFactory/ConfigTest.php:317-373 | BMP, false and null are refused as image types. -1, false, null and 'foo' are refused as qualities, and 0 and 100 are accepted. |
| ImageDecorator.NewCanvas | lib/BoxUK/Obscura/ImageDecorator/AbstractDecorator.php:171-175 | A canvas exists iff both sides are positive, and it has exactly the requested size. |
| ImageDecorator.Load | lib/BoxUK/Obscura/ImageDecorator/AbstractDecorator.php:65-106 | Without GD it throws the library Exception. Something that is not an image resource throws InvalidArgumentException. Otherwise the decorator takes on the resource's width and height. |
| DecoratorFactory.DecoratorForImageType | lib/BoxUK/Obscura/ImageDecorator/Factory.php:81-99 | A decorator is made iff the tag is JPEG, GIF or PNG, and its type is that tag. Any other tag, null included, throws the library Exception. |
| DecoratorFactory.DispatchInvertsTag | lib/BoxUK/Obscura/ImageDecorator/Factory.php:81-99 | Dispatching on a variant's own tag gives back that variant. |
| DecoratorFactory.LoadImageFromResource | lib/BoxUK/Obscura/ImageDecorator/Factory.php:28-36 | The tag is validated before the resource is touched. The decorator's type is the requested tag and its size is the resource's. |
| DecoratorFactory.LoadImageFromFile | lib/BoxUK/Obscura/ImageDecorator/Factory.php:48-68 | The error order: a missing file throws InvalidArgumentException before any probing; an unreadable format throws Exception; then an unsupported type. On success the type is the probed one and the size is the decoded image's. |
| DecoratorFactory.TestedDispatch | tests/php/BoxUK/Obscura/ImageDecorator/FactoryTest.php:20-73 | JPEG, GIF and PNG tags dispatch to their decorators. BMP and null throw. |
| AbstractDecorator.GetOrientation | lib/BoxUK/Obscura/ImageDecorator/AbstractDecorator.php:315-326 | Landscape iff wider than tall, portrait iff taller than wide, square iff equal. |
| AbstractDecorator.OrientationOfTransposed | lib/BoxUK/Obscura/ImageDecorator/AbstractDecorator.php:315-326 | Swapping the sides swaps landscape and portrait and keeps square. |
| AbstractDecorator.ToArray | lib/BoxUK/Obscura/ImageDecorator/AbstractDecorator.php:333-341 | Exactly the width, the height and the orientation constant: 0 iff landscape, 1 iff portrait. |
| AbstractDecorator.ProportionalSize | lib/BoxUK/Obscura/ImageDecorator/AbstractDecorator.php:352-356 | The result is the exact ceiling of altNew / altCurrent × dimCurrent: the least integer r with altNew·dimCurrent ≤ altCurrent·r. |
| AbstractDecorator.ProportionalSizeOfSame | lib/BoxUK/Obscura/ImageDecorator/AbstractDecorator.php:352-356 | An unchanged reference side leaves the other side unchanged. |
| AbstractDecorator.ProportionalSizePositive | lib/BoxUK/Obscura/ImageDecorator/AbstractDecorator.php:352-356 | A positive target and side give a positive size. |
| AbstractDecorator.ProportionalSizeAtMost | lib/BoxUK/Obscura/ImageDecorator/AbstractDecorator.php:352-356 | Shrinking the reference side never grows the other side. |
| AbstractDecorator.ProportionalSizeOfShorterSide | lib/BoxUK/Obscura/ImageDecorator/AbstractDecorator.php:352-356 | Scaling the longer side to k gives the shorter side a length in 1..k. |
| AbstractDecorator.ProportionalSizeExact | lib/BoxUK/Obscura/ImageDecorator/AbstractDecorator.php:352-356 | When the division is exact, the aspect ratio is kept exactly. |
| AbstractDecorator.Resize | lib/BoxUK/Obscura/ImageDecorator/AbstractDecorator.php:186-224 | Given both sides, it succeeds iff both are positive and yields exactly them. An omitted side keeps its length unless preservation is on and the other new side is non-zero; then it is the proportional (ceiling) size. A one-sided resize without preservation to a positive length always succeeds. A failure is the InvalidArgumentException of loading a missing canvas. The variant is kept. |
| AbstractDecorator.ResizeWithoutTargetKeepsImage | lib/BoxUK/Obscura/ImageDecorator/AbstractDecorator.php:186-204 | Resizing with neither side given is the identity, with or without preservation. |
| AbstractDecorator.ResizeSeesEarlierResize | lib/BoxUK/Obscura/ImageDecorator/AbstractDecorator.php:186-224 | Because `load` updates the receiver, resize(c) after resize(a, b) gives c × b. |
| AbstractDecorator.Crop | lib/BoxUK/Obscura/ImageDecorator.php:118-126 | An omitted side defaults to the current one. The result has exactly the resolved size and succeeds iff both sides are positive. |
| AbstractDecorator.CentredOffset | lib/BoxUK/Obscura/ImageDecorator/AbstractDecorator.php:257-258 | The truncated half margin is non-negative and keeps the inner side inside the outer one. The far margin equals the near one or exceeds it by one. |
| AbstractDecorator.CropPositionCentres | lib/BoxUK/Obscura/ImageDecorator.php:118-126 | A crop region no larger than the image starts inside it and ends inside it, centred to within a pixel. |
| AbstractDecorator.MountPositionCentres | lib/BoxUK/Obscura/ImageDecorator/AbstractDecorator.php:257-270 | On a mount at least as large as the image, the copy position puts the whole image inside the mount, centred to within a pixel. |
| AbstractDecorator.Mount | lib/BoxUK/Obscura/ImageDecorator/AbstractDecorator.php:238-274 | A mount narrower or shorter than the image throws before the colour is looked at. Otherwise it succeeds iff the colour parses, and the result is exactly W × H. Every failure is an InvalidArgumentException. |
| AbstractDecorator.Output | lib/BoxUK/Obscura/ImageDecorator/AbstractDecorator.php:288-298 | With no type, or the decorator's own type, the decorator's own encoder runs. Another type is re-dispatched through the factory to that type's decorator, of the same size. It fails exactly when that type has no decorator or GD is missing. |
| AbstractDecorator.TestedResizes | tests/php/BoxUK/Obscura/ImageDecorator/AbstractDecoratorTest.php:61-91 | The resize sequence of the tests on a 400×200 image: 200×100, 300×100, 300×200, 150×100, 300×200. |
| AbstractDecorator.TestedGeometry | tests/php/BoxUK/Obscura/ImageDecorator/AbstractDecoratorTest.php:93-184 | The crop, mount and orientation expectations of the tests. |
| ThumbnailFactory.SetInputDirectory | lib/BoxUK/Obscura/ThumbnailFactory.php:67-75 | Succeeds iff the path is a directory, changing only the input directory. Otherwise it throws InvalidArgumentException. |
| ThumbnailFactory.SetOutputDirectory | lib/BoxUK/Obscura/ThumbnailFactory.php:95-103 | Succeeds iff the path is a writable directory, changing only the output directory. Otherwise it throws InvalidArgumentException. |
| ThumbnailFactory.PathToInputImage | lib/BoxUK/Obscura/ThumbnailFactory.php:301-323 | An empty or absent name throws first. A readable file at the name as given wins. Otherwise the one inside the input directory is used. It throws iff neither candidate is usable, and the result is always a usable candidate. |
| ThumbnailFactory.LastDot | lib/BoxUK/Obscura/ThumbnailFactory.php:393-394 | Finds the last '.' (no later character is one), or reports that there is none. |
| ThumbnailFactory.ExtensionForThumbnail | lib/BoxUK/Obscura/ThumbnailFactory.php:372-399 | A JPEG, GIF or PNG image type gives .jpg, .gif or .png. Otherwise the extension is the input name's suffix from its last '.', with no other '.'. With no '.', it is empty. |
| ThumbnailFactory.FilenameForThumbnail | lib/BoxUK/Obscura/ThumbnailFactory.php:346-363 | An output filename of non-zero length is used as it is. Otherwise the name is "thumb-" followed by the config's digest and extension. The name never has zero length. |
| ThumbnailFactory.ResizeThumbnail | lib/BoxUK/Obscura/ThumbnailFactory.php:161-217 | With nothing set there is no change. With width and height both set the result is exactly those, whatever the lock and constraint. The variant is kept. |
| ThumbnailFactory.ConstraintFixesLongestEdge | lib/BoxUK/Obscura/ThumbnailFactory.php:177-215 | A positive size constraint becomes the longest edge, from the longer side; the other side is no longer, and square stays square. Whatever the configured lock, a landscape or portrait image is resized with the lock on: it becomes k by the proportional size of its height (landscape) or the proportional size of its width by k (portrait), and a square becomes k by k. |
| ThumbnailFactory.LockedWidthScalesHeight | lib/BoxUK/Obscura/ThumbnailFactory.php:204-215 | With the lock on and only a width, the width is taken and the height is its proportional ceiling. It succeeds iff the width is positive. |
| ThumbnailFactory.LockedHeightScalesWidth | lib/BoxUK/Obscura/ThumbnailFactory.php:204-215 | With the lock on and only a height, the width follows proportionally. |
| ThumbnailFactory.UnlockedKeepsOtherDimension | lib/BoxUK/Obscura/ThumbnailFactory.php:172-215 | With the lock off, an absent other side keeps its length. A zero other side makes the resize fail. |
| ThumbnailFactory.CropThumbnail | lib/BoxUK/Obscura/ThumbnailFactory.php:227-242 | Crops to whichever of width and height are set, keeping the current length for the other side. With neither set there is no change. |
| ThumbnailFactory.CropIgnoresConstraintAndLock | lib/BoxUK/Obscura/ThumbnailFactory.php:134-139 | When cropping, the size constraint and aspect lock make no difference. |
| ThumbnailFactory.MountSize | lib/BoxUK/Obscura/ThumbnailFactory.php:260-286 | Both set: as given. Neither set: a square of the longest edge. One set: that one, with the image's own length for the other. |
| ThumbnailFactory.MountThumbnail | lib/BoxUK/Obscura/ThumbnailFactory.php:252-290 | Disabled: no change. Enabled: the result has the settled mount size. |
| ThumbnailFactory.DefaultedMountFits | lib/BoxUK/Obscura/ThumbnailFactory.php:269-288 | When at most one side is given and it is not too small, defaulting makes a mount that always fits; only the colour can fail. |
| ThumbnailFactory.Prepare | lib/BoxUK/Obscura/ThumbnailFactory.php:114-132 | Errors come in source order: input name, input image, output directory, then loading, and a load failure is the loader's own error. A cache hit requires caching on and a thumbnail strictly newer than the input. A loadable input always gets past this step, and without a fresh cached thumbnail it goes on to be processed. |
| ThumbnailFactory.Transform | lib/BoxUK/Obscura/ThumbnailFactory.php:134-141 | Crop (by the crop policy) or resize (by the resize policy), then mount (by the mount policy): a sizing failure is returned as is, and otherwise the result is the mount of the sized image. The variant is kept and every failure is an InvalidArgumentException. |
| ThumbnailFactory.CreateThumbnail | lib/BoxUK/Obscura/ThumbnailFactory.php:114-151 | The input error comes before the output-directory error. It returns the filename or false. After a write, it returns false exactly when encoding failed, and then the filesystem is unchanged. With no write there is no change. A write goes to the output directory joined with the filename, at the configured quality and in the configured type. A successful write stores the file stamped with the current time. Any error from resolving the input, loading or the cache check is returned as is. A cache hit returns the filename with no write. On a miss, a failing transformation or re-encoding returns its error. Otherwise the written image has exactly the width and height of the configured crop-or-resize-then-mount of the loaded input, and with no output type configured it is that image itself. |
| ThumbnailFactory.CacheHitReturnsFilename | lib/BoxUK/Obscura/ThumbnailFactory.php:128-132 | Caching on and a thumbnail strictly newer than the input: the filename comes back with no transform and no write. |
| ThumbnailFactory.StaleThumbnailIsRegenerated | lib/BoxUK/Obscura/ThumbnailFactory.php:128-149 | Without a fresh thumbnail, every successful call writes one. |
| ThumbnailFactory.SecondCallIsCached | lib/BoxUK/Obscura/ThumbnailFactory.php:128-149 | A second identical call after a successful write, stamped later than the input, is a cache hit, unless the thumbnail overwrote a path the input is looked up at. |
| ThumbnailFactory.CreateThumbnailAsWritten | lib/BoxUK/Obscura/ThumbnailFactory.php:114-134 | The call as the library writes it never writes anything: past the cache check it dies on the undefined `getCrop()`. |
| ThumbnailFactory.AsWrittenNeverWrites | lib/BoxUK/Obscura/ThumbnailFactory.php:128-139 | Whenever the corrected call writes a thumbnail, the call as written dies instead. The two agree on earlier errors and on cache hits. |
| ThumbnailFactory.TestedResizePolicy | tests/php/BoxUK/Obscura/ThumbnailFactoryTest.php:36-148 | 400×200 with width 200 or height 100 gives 200×100. Width 100 with height 300 gives 100×300. A constraint of 200 gives 200×100, or 100×200 for a portrait input. |
| ThumbnailFactory.TestedMountPolicy | tests/php/BoxUK/Obscura/ThumbnailFactoryTest.php:150-243 | A 600×400 mount gives 600×400. Mount width 600 gives 600×200. Mount height 400 gives 400×400. No mount size gives 400×400 for both orientations. |
| ThumbnailFactory.TestedCreateThumbnail | tests/php/BoxUK/Obscura/ThumbnailFactoryTest.php:36-59 | A locked width of 200 on a 400×200 JPEG with a fixed output name writes a 200×100 JPEG at quality 100 into the output directory and returns the name. |
| ThumbnailFactory.TestedCreateThumbnailAsWritten | tests/php/BoxUK/Obscura/ThumbnailFactoryTest.php:296-320 | No input name throws before anything else. A missing output directory throws next. The same width-200 call as written dies on `getCrop()`. |

## Left out

- Pixel work is left out because it belongs to GD. This covers resampling, copying, filling, colour allocation, and the transparency set-up of the GIF and PNG canvases. A decoded image is its size.
- The per-format decoders and encoders are left out. The encoder's success is an input flag, and the written file is recorded with its size and type. This includes the PNG quality mapping, which is floating point.
- Floating point in `calculateProportionalSizeForDimension` is not modelled. The model computes the exact integer ceiling, so float artefacts such as 7/100×100 → 8 are not reproduced.
- `md5(serialize($config))` is an uninterpreted function of the config. Nothing is claimed about collisions.
- PHP floats, objects and resources are not values of `PhpValue`. Loose `==` between an int tag and a string or boolean is not modelled; every in-library caller passes an int or null.
- AbstractDecorator.Crop: `crop` is declared only by the ImageDecorator interface (ImageDecorator.php:118-126), whose comment says it crops from the centre; AbstractDecorator and the JPEG, GIF and PNG classes define no body for it. The model assumes it allocates its canvas like `resize` and takes the centred region at `CropPosition`, which `CropPositionCentres` shows lies inside the image. Its pixels are not modelled.
- Resize and Mount take GD as present. They run only on a decorator that `load` has already accepted, and `load` checks the extension.
- The freshness check and the write can race between concurrent callers. This is left out because the library has no concurrency of its own.
- The harness, packaging and autoload files are not modelled: `tests/htdocs/image.php`, `tools/sandbox/index.php`, `package.php`, `lib/bootstrap.php` and `tests/php/mocks.php`. `Exception.php` is an empty class and appears only as error constructors.
- The getters (`getWidth` and the rest) are the `Config` fields read through `ThumbnailConfig.Get`. `getImage`, `getFactory`, `setFactory` and `getMimeType` carry no policy.
- ColorParser.IsHexadecimalColor: a PHP string is a sequence of bytes, and the model reads each character as one byte. `substr($s, 0, 7)` counts bytes, so a string whose first seven characters include a multi-byte UTF-8 character (such as "é123456") is seen by PHP as fewer characters. The model does not reproduce that. The same holds for `Prefix7` in `HexadecimalStringToRgbArray`.
- Php.StrLen: `strlen` of an array is read as 0. PHP returns null with a warning, and both are falsy, so `getFilenameForThumbnail` takes the same branch; the warning is not modelled.
- ThumbnailFactory.CreateThumbnail: a failed encoding is modelled as leaving the filesystem unchanged. What GD leaves behind after a failed write is not modelled.

## Findings

| source | as written | input that shows it | evidently intended | confidence | as-written member | corrected member |
|---|---|---|---|---|---|---|
| lib/BoxUK/Obscura/ThumbnailFactory.php:134 | `createThumbnail` calls `$config->getCrop()`, but `Config` defines no such method and no `__call`. Every call that misses the cache ends in a fatal error. | A config with an input name, width 200 and output name "t.jpg", caching off, for a 400×200 JPEG in the input directory. | Crop is an option of the call that defaults to off, so the resize path runs and the thumbnail is written. | high, not executed | ThumbnailFactory.CreateThumbnailAsWritten (counterexample: ThumbnailFactory.TestedCreateThumbnailAsWritten) | ThumbnailFactory.CreateThumbnail (proved: ThumbnailFactory.TestedCreateThumbnail, ThumbnailFactory.SecondCallIsCached) |

=== FILE: abstract_decorator.dfy ===
/**
 * AbstractDecorator: the geometry every decorator shares.  `resize`,
 * `crop` and `mount` draw onto a new canvas and load it back into the
 * receiver, so the decorator they return is the receiver with a new size;
 * here each returns the updated Image.
 */
module AbstractDecorator {
  import opened Wrappers
  import opened Php
  import opened Errors
  import opened ImageDecorator
  import DecoratorFactory
  import ColorParser

  /** `getOrientation`. */
  function GetOrientation(img: Image): (o: Orientation)
    ensures o == Landscape <==> img.width > img.height
    ensures o == Portrait <==> img.width < img.height
    ensures o == Square <==> img.width == img.height
  {
    if img.width > img.height then Landscape
    else if img.width < img.height then Portrait
    else Square
  }

  /** Turning an image on its side swaps landscape and portrait and keeps square. */
  lemma OrientationOfTransposed(img: Image)
    ensures var t := Image(img.height, img.width, img.variant);
      && (GetOrientation(img) == Landscape <==> GetOrientation(t) == Portrait)
      && (GetOrientation(img) == Square <==> GetOrientation(t) == Square)
  {
  }

  /** The length of the longer side. */
  function LongestEdge(img: Image): (n: Pos)
    ensures n >= img.width && n >= img.height
    ensures n == img.width || n == img.height
  {
    if img.width >= img.height then img.width else img.height
  }

  datatype Summary = Summary(width: int, height: int, orientation: int)

  /** `toArray`: width, height and the orientation constant. */
  function ToArray(img: Image): (s: Summary)
    ensures s.width == img.width && s.height == img.height
    ensures s.orientation == GetOrientation(img).Code()
    ensures s.orientation == 0 <==> img.width > img.height
    ensures s.orientation == 1 <==> img.width < img.height
  {
    Summary(img.width, img.height, GetOrientation(img).Code())
  }

  /** The least integer not below p / q. */
  function CeilDiv(p: int, q: Pos): (r: int)
    ensures q * (r - 1) < p <= q * r
  {
    var m := -p;
    assert m == q * (m / q) + m % q;
    -(m / q)
  }

  /**
   * `calculateProportionalSizeForDimension`: ceil(altNew / altCurrent * dimCurrent),
   * computed exactly.
   */
  function ProportionalSize(altNew: int, altCurrent: Pos, dimCurrent: int): (r: int)
    ensures altCurrent * (r - 1) < altNew * dimCurrent <= altCurrent * r
  {
    CeilDiv(altNew * dimCurrent, altCurrent)
  }

  lemma ScaleCancels(a: Pos, x: int, y: int)
    ensures a * x < a * y <==> x < y
    ensures a * x <= a * y <==> x <= y
  {
    if x < y {
      assert a * y == a * x + a * (y - x);
    }
    if y < x {
      assert a * x == a * y + a * (x - y);
    }
  }

  /** Scaling by the unchanged dimension gives back the other dimension. */
  lemma ProportionalSizeOfSame(altCurrent: Pos, dimCurrent: int)
    ensures ProportionalSize(altCurrent, altCurrent, dimCurrent) == dimCurrent
  {
    var r := ProportionalSize(altCurrent, altCurrent, dimCurrent);
    assert altCurrent * dimCurrent == altCurrent * dimCurrent;
    ScaleCancels(altCurrent, r - 1, dimCurrent);
    ScaleCancels(altCurrent, dimCurrent, r);
  }

  /** A positive target and a positive dimension give a positive size. */
  lemma ProportionalSizePositive(altNew: int, altCurrent: Pos, dimCurrent: int)
    requires altNew > 0 && dimCurrent > 0
    ensures ProportionalSize(altNew, altCurrent, dimCurrent) > 0
  {
    var r := ProportionalSize(altNew, altCurrent, dimCurrent);
    assert altNew * dimCurrent > 0;
    ScaleCancels(altCurrent, 0, r);
  }

  /** Shrinking one side never grows the other. */
  lemma ProportionalSizeAtMost(altNew: int, altCurrent: Pos, dimCurrent: int)
    requires 0 <= altNew <= altCurrent && dimCurrent >= 0
    ensures ProportionalSize(altNew, altCurrent, dimCurrent) <= dimCurrent
  {
    var r := ProportionalSize(altNew, altCurrent, dimCurrent);
    MulMonotone(altNew, altCurrent, dimCurrent);
    ScaleCancels(altCurrent, r - 1, dimCurrent);
  }

  lemma MulMonotone(a: int, b: int, c: int)
    requires a <= b && c >= 0
    ensures a * c <= b * c
  {
    assert b * c - a * c == (b - a) * c;
  }

  /**
   * Scaling the longer side to a positive length gives the shorter side a
   * positive length no greater than it.
   */
  lemma ProportionalSizeOfShorterSide(altNew: int, altCurrent: Pos, dimCurrent: Pos)
    requires altNew > 0 && dimCurrent <= altCurrent
    ensures 0 < ProportionalSize(altNew, altCurrent, dimCurrent) <= altNew
  {
    var r := ProportionalSize(altNew, altCurrent, dimCurrent);
    ProportionalSizePositive(altNew, altCurrent, dimCurrent);
    assert altNew * dimCurrent <= altNew * altCurrent;
    ScaleCancels(altCurrent, r - 1, altNew);
  }

  /** When the division is exact the new size keeps the aspect ratio exactly. */
  lemma ProportionalSizeExact(altNew: int, altCurrent: Pos, dimCurrent: int)
    requires (altNew * dimCurrent) % altCurrent == 0
    ensures ProportionalSize(altNew, altCurrent, dimCurrent) * altCurrent == altNew * dimCurrent
  {
    var r := ProportionalSize(altNew, altCurrent, dimCurrent);
    var k := (altNew * dimCurrent) / altCurrent;
    assert altNew * dimCurrent == altCurrent * k;
    ScaleCancels(altCurrent, r - 1, k);
    ScaleCancels(altCurrent, k, r);
  }

  /**
   * The size `resize` settles on.  An omitted side keeps its current length
   * unless aspect preservation is on and both the other side's new length
   * and its current length are non-zero; then it is the proportional size.
   */
  function ResizeTarget(img: Image, width: Option<int>, height: Option<int>, preserve: bool): (int, int) {
    var w :=
      if width.Some? then width.value
      else if !preserve || IntVal(height) == 0 || img.height == 0 then img.width
      else ProportionalSize(IntVal(height), img.height, img.width);
    var h :=
      if height.Some? then height.value
      else if !preserve || w == 0 || img.width == 0 then img.height
      else ProportionalSize(w, img.width, img.height);
    (w, h)
  }

  /**
   * `resize`: resamples onto a canvas of the settled size and loads it into
   * the receiver.  A non-positive side leaves GD without a canvas, and
   * loading that fails.
   */
  function Resize(img: Image, width: Option<int>, height: Option<int>, preserve: bool): (r: Result<Image, Error>)
    ensures r.Err? ==> r.error == NotAnImageResource
    ensures r.Ok? ==> r.value.variant == img.variant
    ensures width.Some? && height.Some? ==> (r.Ok? <==> width.value > 0 && height.value > 0)
    ensures width.Some? && r.Ok? ==> r.value.width == width.value
    ensures height.Some? && r.Ok? ==> r.value.height == height.value
    ensures width.None? && (!preserve || IntVal(height) == 0) && r.Ok? ==> r.value.width == img.width
    ensures height.None? && !preserve && r.Ok? ==> r.value.height == img.height
    ensures width.Some? && width.value > 0 && height.None? && !preserve ==> r.Ok?
    ensures height.Some? && height.value > 0 && width.None? && !preserve ==> r.Ok?
    ensures preserve && width.None? && IntVal(height) != 0 && r.Ok?
            ==> img.height * (r.value.width - 1) < height.value * img.width <= img.height * r.value.width
    ensures preserve && height.None? && IntVal(width) != 0 && r.Ok?
            ==> img.width * (r.value.height - 1) < width.value * img.height <= img.width * r.value.height
  {
    var (w, h) := ResizeTarget(img, width, height, preserve);
    Load(img.variant, NewCanvas(w, h), true)
  }

  /** Resizing with neither side given leaves the image as it is, with or without preservation. */
  lemma ResizeWithoutTargetKeepsImage(img: Image, preserve: bool)
    ensures Resize(img, None, None, preserve) == Ok(img)
  {
    ProportionalSizeOfSame(img.width, img.height);
  }

  /**
   * Resizing replaces the receiver's size, so a later call starts from it:
   * after resize(a, b), resize(c) gives c by b.
   */
  lemma ResizeSeesEarlierResize(img: Image, a: Pos, b: Pos, c: Pos)
    ensures Resize(img, Some(a), Some(b), false).Ok?
    ensures var first := Resize(img, Some(a), Some(b), false).value;
      Resize(first, Some(c), None, false) == Ok(Image(c, b, img.variant))
  {
  }

  /**
   * `crop`: an omitted side defaults to the current one and the region is
   * loaded into the receiver.  `crop` is declared only by the ImageDecorator
   * interface; AbstractDecorator and the JPEG, GIF and PNG classes define no
   * body for it, so it is taken to allocate its canvas as `resize` does.
   */
  function Crop(img: Image, width: Option<int>, height: Option<int>): (r: Result<Image, Error>)
    ensures var w, h := width.GetOr(img.width), height.GetOr(img.height);
      && (r.Ok? <==> w > 0 && h > 0)
      && (r.Ok? ==> r.value == Image(w, h, img.variant))
      && (r.Err? ==> r.error == NotAnImageResource)
  {
    Load(img.variant, NewCanvas(width.GetOr(img.width), height.GetOr(img.height)), true)
  }

  /** PHP's `(int)(x / 2)`: the float quotient truncated toward zero. */
  function TruncHalf(x: int): (r: int)
    ensures x >= 0 ==> 0 <= x - 2 * r <= 1
    ensures x < 0 ==> -1 <= x - 2 * r <= 0
  {
    if x >= 0 then x / 2 else -((-x) / 2)
  }

  /**
   * Where a side of length `inner` starts when centred on a side of length
   * `outer`; when it fits, the margin after it equals the margin before or
   * exceeds it by one.
   */
  function CentredOffset(outer: int, inner: int): (x: int)
    ensures inner <= outer ==> 0 <= x && x + inner <= outer
    ensures inner <= outer ==> 0 <= (outer - inner - x) - x <= 1
  {
    TruncHalf(outer - inner)
  }

  /** The top-left corner of the centred region `crop` keeps. */
  function CropPosition(img: Image, width: int, height: int): (int, int) {
    (CentredOffset(img.width, width), CentredOffset(img.height, height))
  }

  /** A region no larger than the image lies wholly inside it, centred to within a pixel. */
  lemma CropPositionCentres(img: Image, width: int, height: int)
    requires 0 <= width <= img.width && 0 <= height <= img.height
    ensures var (x, y) := CropPosition(img, width, height);
      && 0 <= x && x + width <= img.width && 0 <= (img.width - width - x) - x <= 1
      && 0 <= y && y + height <= img.height && 0 <= (img.height - height - y) - y <= 1
  {
  }

  /** The top-left corner at which `mount` places the image on its background. */
  function MountPosition(img: Image, width: int, height: int): (int, int) {
    (CentredOffset(width, img.width), CentredOffset(height, img.height))
  }

  /** The image lies wholly inside the mount, centred to within a pixel. */
  lemma MountPositionCentres(img: Image, width: int, height: int)
    requires width >= img.width && height >= img.height
    ensures var (x, y) := MountPosition(img, width, height);
      && 0 <= x && x + img.width <= width && 0 <= (width - img.width - x) - x <= 1
      && 0 <= y && y + img.height <= height && 0 <= (height - img.height - y) - y <= 1
  {
  }

  /**
   * `mount`: a mount narrower or shorter than the image throws before
   * anything is drawn; then the colour is parsed, which may throw too.  The
   * mounted image is loaded into the receiver.
   */
  function Mount(img: Image, width: int, height: int, color: PhpValue): (r: Result<Image, Error>)
    ensures width < img.width || height < img.height ==> r == Err(MountTooSmall)
    ensures width >= img.width && height >= img.height
            ==> (r.Ok? <==> ColorParser.GetRgbaValuesFromColor(color).Ok?)
    ensures r.Ok? ==> r.value.width == width && r.value.height == height && r.value.variant == img.variant
    ensures r.Err? ==> r.error.IsInvalidArgument()
  {
    if width < img.width || height < img.height then Err(MountTooSmall)
    else
      var rgba :- ColorParser.GetRgbaValuesFromColor(color);
      Load(img.variant, NewCanvas(width, height), true)
  }

  /**
   * `output`: a requested type other than the decorator's own is handed to
   * the factory's decorator for that type, which outputs it; otherwise the
   * decorator's own encoder runs.  The result is the decorator whose encoder
   * runs; its success flag belongs to GD and is not modelled here.
   */
  function Output(img: Image, imageType: Option<int>, gdLoaded: bool): (r: Result<Image, Error>)
    ensures imageType.None? || imageType.value == img.variant.Tag() ==> r == Ok(img)
    ensures r.Ok? ==> r.value.width == img.width && r.value.height == img.height
    ensures r.Ok? && imageType.Some? ==> r.value.variant.Tag() == imageType.value
    ensures r.Err? <==> && imageType.Some? && imageType.value != img.variant.Tag()
                        && (DecoratorFactory.DecoratorForImageType(imageType).Err? || !gdLoaded)
    decreases if imageType.Some? && imageType.value != img.variant.Tag() then 1 else 0
  {
    if imageType.Some? && imageType.value != img.variant.Tag() then
      var image :- DecoratorFactory.LoadImageFromResource(Raster(img.width, img.height), imageType, gdLoaded);
      Output(image, imageType, gdLoaded)
    else Ok(img)
  }

  /** The decorator's own resize sequence from the library's tests, on a 400 by 200 image. */
  lemma TestedResizes(v: Variant)
    ensures var a := Resize(Image(400, 200, v), Some(200), Some(100), false);
      && a == Ok(Image(200, 100, v))
      && var b := Resize(a.value, Some(300), None, false);
      && b == Ok(Image(300, 100, v))
      && var c := Resize(b.value, None, Some(200), false);
      && c == Ok(Image(300, 200, v))
      && var d := Resize(c.value, Some(150), None, true);
      && d == Ok(Image(150, 100, v))
      && Resize(d.value, None, Some(200), true) == Ok(Image(300, 200, v))
  {
  }

  lemma TestedGeometry(v: Variant)
    ensures GetOrientation(Image(400, 200, v)) == Landscape
    ensures GetOrientation(Image(200, 400, v)) == Portrait
    ensures GetOrientation(Image(400, 400, v)) == Square
    ensures Mount(Image(400, 200, v), 600, 400, PStr("#000000")) == Ok(Image(600, 400, v))
    ensures Mount(Image(400, 200, v), 100, 100, PStr("#000000")) == Err(MountTooSmall)
    ensures Crop(Image(400, 200, v), Some(300), None) == Ok(Image(300, 200, v))
    ensures Crop(Image(400, 200, v), None, Some(50)) == Ok(Image(400, 50, v))
  {
    ColorParser.HexColorRoundTrip(0, 0, 0, true);
    assert ColorParser.FormatHexColor(0, 0, 0, true) == "#000000";
  }
}

=== FILE: color_parser.dfy ===
/**
 * ColorParser: turns an array or a hexadecimal string into the four values
 * handed to imagecolorallocatealpha.  Array elements are passed through
 * unchecked; a string contributes 24 bits of RGB and an alpha of 0.
 */
module ColorParser {
  import opened Wrappers
  import opened Php
  import opened Errors

  predicate IsHexDigit(c: char) {
    '0' <= c <= '9' || 'a' <= c <= 'f' || 'A' <= c <= 'F'
  }

  predicate AllHex(s: string) {
    forall k :: 0 <= k < |s| ==> IsHexDigit(s[k])
  }

  predicate AllHash(s: string) {
    forall k :: 0 <= k < |s| ==> s[k] == '#'
  }

  /** `substr($s, 0, 7)`: only the first seven characters are ever examined. */
  function Prefix7(s: string): (p: string)
    ensures |p| <= 7 && p <= s
    ensures |s| <= 7 ==> p == s
  {
    if |s| <= 7 then s else s[..7]
  }

  /**
   * What the unanchored pattern `#*[0-9a-fA-F]{6}` matches: some run of
   * `#` (possibly none) immediately followed by six hex digits, anywhere.
   */
  ghost predicate RegexMatches(t: string) {
    exists i, j :: 0 <= i <= j && j + 6 <= |t| && AllHash(t[i..j]) && AllHex(t[j..j + 6])
  }

  /** Length of the longest all-hex suffix of `t`. */
  function HexRun(t: string): (n: nat)
    ensures n <= |t|
  {
    if |t| == 0 then 0
    else if IsHexDigit(t[|t| - 1]) then HexRun(t[..|t| - 1]) + 1
    else 0
  }

  /** A left-to-right scan: does some prefix of `t` end in six hex digits? */
  predicate HasHexRun(t: string) {
    |t| > 0 && (HexRun(t) >= 6 || HasHexRun(t[..|t| - 1]))
  }

  /** `isHexadecimalColor`: the pattern is searched for in the first seven characters. */
  function IsHexadecimalColor(color: string): (matched: bool)
    ensures matched <==> RegexMatches(Prefix7(color))
  {
    HasHexRunIsRegexMatch(Prefix7(color));
    HasHexRun(Prefix7(color))
  }

  function HexDigitValue(c: char): (d: nat)
    requires IsHexDigit(c)
    ensures d < 16
  {
    if '0' <= c <= '9' then (c - '0') as nat
    else if 'a' <= c <= 'f' then (c - 'a') as nat + 10
    else (c - 'A') as nat + 10
  }

  function Pow16(n: nat): (p: nat)
    ensures p > 0
  {
    if n == 0 then 1 else 16 * Pow16(n - 1)
  }

  /** The number a string of hex digits denotes, most significant digit first. */
  function HexValue(digits: string): (v: nat)
    requires AllHex(digits)
    ensures v < Pow16(|digits|)
  {
    if |digits| == 0 then 0
    else HexValue(digits[..|digits| - 1]) * 16 + HexDigitValue(digits[|digits| - 1])
  }

  /** The hex digits of `s`, in order; everything else is dropped. */
  function KeepHexDigits(s: string): (ds: string)
    ensures AllHex(ds) && |ds| <= |s|
    ensures AllHex(s) ==> ds == s
  {
    if |s| == 0 then ""
    else if IsHexDigit(s[0]) then [s[0]] + KeepHexDigits(s[1..])
    else KeepHexDigits(s[1..])
  }

  /** `hexdec`: characters that are not hex digits are skipped. */
  function HexDec(s: string): nat {
    HexValue(KeepHexDigits(s))
  }

  /** `str_replace('#', '', s)`. */
  function RemoveHashes(s: string): (t: string)
    ensures '#' !in t
    ensures '#' !in s ==> t == s
  {
    if |s| == 0 then ""
    else if s[0] == '#' then RemoveHashes(s[1..])
    else [s[0]] + RemoveHashes(s[1..])
  }

  /** `0xFF & (d >> shift)` on a non-negative `d`. */
  function Channel(d: nat, shift: nat): (c: int)
    ensures 0 <= c < 256
  {
    (d / Pow2(shift)) % 256
  }

  function Pow2(n: nat): (p: nat)
    ensures p > 0
  {
    if n == 0 then 1 else 2 * Pow2(n - 1)
  }

  /** `hexadecimalStringToRGBArray`: R, G, B from bits 16-23, 8-15, 0-7 and an alpha of 0. */
  function HexadecimalStringToRgbArray(hexadecimal: string): (rgba: seq<PhpValue>)
    ensures |rgba| == 4 && rgba[3] == PInt(0)
    ensures forall k :: 0 <= k < 4 ==> rgba[k].PInt? && 0 <= rgba[k].i < 256
  {
    var decimal := HexDec(RemoveHashes(Prefix7(hexadecimal)));
    [PInt(Channel(decimal, 16)), PInt(Channel(decimal, 8)), PInt(Channel(decimal, 0)), PInt(0)]
  }

  /** `parseArrayForRGBAValues`; `None` stands for the `false` it returns. */
  function ParseArrayForRgbaValues(color: seq<Entry>): (r: Option<seq<PhpValue>>)
    ensures r.Some? <==> 3 <= |color| <= 4
    ensures r.Some? ==> |r.value| == 4
  {
    if |color| < 3 || |color| > 4 then None
    else
      var values := Values(color);
      if |values| == 3 then Some(values + [PInt(0)]) else Some(values)
  }

  /** `parseStringForRGBAValues`; `None` stands for `false`. */
  function ParseStringForRgbaValues(color: string): (r: Option<seq<PhpValue>>)
    ensures r.Some? <==> RegexMatches(Prefix7(color))
  {
    if IsHexadecimalColor(color) then Some(HexadecimalStringToRgbArray(color)) else None
  }

  /** `getRGBAValuesFromColor`: every success is exactly four values. */
  function GetRgbaValuesFromColor(color: PhpValue): (r: Result<seq<PhpValue>, Error>)
    ensures !color.PArr? && !color.PStr? ==> r == Err(InvalidColorValue)
    ensures color.PArr? ==> (r.Ok? <==> 3 <= |color.entries| <= 4)
    ensures color.PStr? ==> (r.Ok? <==> RegexMatches(Prefix7(color.s)))
    ensures r.Ok? ==> |r.value| == 4
    ensures r.Err? ==> r.error.IsInvalidArgument()
  {
    var colorArray :=
      match color
      case PArr(entries) => ParseArrayForRgbaValues(entries)
      case PStr(s) => ParseStringForRgbaValues(s)
      case _ => None;
    if !color.PArr? && !color.PStr? then Err(InvalidColorValue)
    else if colorArray.None? || |colorArray.value| != 4 then Err(UnparsableColor)
    else Ok(colorArray.value)
  }

  // ---------------------------------------------------------------------
  // The scan agrees with the pattern.

  lemma {:induction false} HexRunSpec(t: string, k: nat)
    requires k <= |t|
    ensures HexRun(t) >= k <==> AllHex(t[|t| - k..])
    decreases |t|
  {
    if k == 0 {
    } else {
      var init := t[..|t| - 1];
      HexRunSpec(init, k - 1);
      var suffix, shorter := t[|t| - k..], init[|init| - (k - 1)..];
      assert forall i :: 0 <= i < k - 1 ==> suffix[i] == shorter[i];
      assert suffix[k - 1] == t[|t| - 1];
      if AllHex(suffix) {
        forall i | 0 <= i < k - 1
          ensures IsHexDigit(shorter[i])
        {
          assert IsHexDigit(suffix[i]);
        }
      }
    }
  }

  /** Six hex digits start at position `j` of `t`. */
  ghost predicate HexAt(t: string, j: int) {
    0 <= j && j + 6 <= |t| && AllHex(t[j..j + 6])
  }

  /** Some window of six hex digits lies inside `t`. */
  ghost predicate HexWindow(t: string) {
    exists j :: HexAt(t, j)
  }

  lemma {:induction false} HasHexRunIsWindow(t: string)
    ensures HasHexRun(t) <==> HexWindow(t)
    decreases |t|
  {
    if |t| == 0 {
    } else {
      var init := t[..|t| - 1];
      HasHexRunIsWindow(init);
      HexRunSpec(t, if |t| >= 6 then 6 else |t|);
      if HexWindow(init) {
        var j :| HexAt(init, j);
        assert t[j..j + 6] == init[j..j + 6];
        assert HexAt(t, j);
      }
      if HexWindow(t) {
        var j :| HexAt(t, j);
        if j + 6 == |t| {
          assert t[|t| - 6..] == t[j..j + 6];
        } else {
          assert init[j..j + 6] == t[j..j + 6];
          assert HexAt(init, j);
        }
      }
      if HexRun(t) >= 6 {
        assert t[|t| - 6..|t| - 6 + 6] == t[|t| - 6..];
        assert HexAt(t, |t| - 6);
      }
    }
  }

  lemma HasHexRunIsRegexMatch(t: string)
    ensures HasHexRun(t) <==> RegexMatches(t)
  {
    HasHexRunIsWindow(t);
    if HexWindow(t) {
      var j :| HexAt(t, j);
      assert AllHash(t[j..j]);
    }
    if RegexMatches(t) {
      var i, j :| 0 <= i <= j && j + 6 <= |t| && AllHash(t[i..j]) && AllHex(t[j..j + 6]);
      assert HexAt(t, j);
    }
  }

  // ---------------------------------------------------------------------
  // Formatting a colour as six hex digits and parsing it back.

  function HexChar(n: nat): (c: char)
    requires n < 16
    ensures IsHexDigit(c) && HexDigitValue(c) == n
  {
    "0123456789ABCDEF"[n]
  }

  /** Two hex digits for one channel. */
  function HexByte(x: nat): (s: string)
    requires x < 256
    ensures |s| == 2 && AllHex(s) && '#' !in s
  {
    [HexChar(x / 16), HexChar(x % 16)]
  }

  /** `RRGGBB` in upper case, optionally behind a `#`. */
  function FormatHexColor(r: nat, g: nat, b: nat, hash: bool): (s: string)
    requires r < 256 && g < 256 && b < 256
    ensures |s| == (if hash then 7 else 6)
  {
    (if hash then "#" else "") + HexByte(r) + HexByte(g) + HexByte(b)
  }

  /** The arithmetic of appending one digit: a·16^n + v, extended by d, is a·16^(n+1) + (16v + d). */
  lemma ShiftDigit(va: int, p: int, vb: int, d: int, vab: int, pb: int, vb1: int)
    requires vab == (va * p + vb) * 16 + d && pb == 16 * p && vb1 == vb * 16 + d
    ensures vab == va * pb + vb1
  {
  }

  /** Appending one digit: the value is shifted by one place and the digit added. */
  lemma HexValueSnoc(s: string, c: char)
    requires AllHex(s) && IsHexDigit(c)
    ensures AllHex(s + [c])
    ensures HexValue(s + [c]) == HexValue(s) * 16 + HexDigitValue(c)
  {
    var t := s + [c];
    assert forall k :: 0 <= k < |s| ==> t[k] == s[k];
    assert t[..|t| - 1] == s;
  }

  lemma AllHexAppend(a: string, b: string)
    requires AllHex(a) && AllHex(b)
    ensures AllHex(a + b)
  {
    forall k | 0 <= k < |a + b|
      ensures IsHexDigit((a + b)[k])
    {
      if k < |a| {
        assert (a + b)[k] == a[k];
      } else {
        assert (a + b)[k] == b[k - |a|];
      }
    }
  }

  /** The inductive step of `HexValueAppend`: the law for `b'` gives it for `b' + [c]`. */
  lemma HexValueAppendStep(a: string, b': string, c: char)
    requires AllHex(a) && AllHex(b') && IsHexDigit(c) && AllHex(a + b')
    requires HexValue(a + b') == HexValue(a) * Pow16(|b'|) + HexValue(b')
    ensures AllHex(b' + [c]) && AllHex(a + (b' + [c]))
    ensures HexValue(a + (b' + [c])) == HexValue(a) * Pow16(|b' + [c]|) + HexValue(b' + [c])
  {
    assert a + (b' + [c]) == (a + b') + [c];
    HexValueSnoc(b', c);
    HexValueSnoc(a + b', c);
    ShiftDigit(HexValue(a), Pow16(|b'|), HexValue(b'), HexDigitValue(c),
               HexValue(a + (b' + [c])), Pow16(|b' + [c]|), HexValue(b' + [c]));
  }

  lemma {:induction false} HexValueAppend(a: string, b: string)
    requires AllHex(a) && AllHex(b)
    ensures AllHex(a + b)
    ensures HexValue(a + b) == HexValue(a) * Pow16(|b|) + HexValue(b)
    decreases |b|
  {
    if |b| == 0 {
      assert a + b == a;
    } else {
      var b', c := b[..|b| - 1], b[|b| - 1];
      assert b == b' + [c];
      assert AllHex(b') by {
        forall k | 0 <= k < |b'|
          ensures IsHexDigit(b'[k])
        {
          assert b'[k] == b[k];
        }
      }
      HexValueAppend(a, b');
      HexValueAppendStep(a, b', c);
    }
  }

  lemma HexByteValue(x: nat)
    requires x < 256
    ensures HexValue(HexByte(x)) == x
  {
    var s := HexByte(x);
    assert s[..1] == [HexChar(x / 16)];
    assert s[..1][..0] == "";
  }

  lemma {:induction false} RemoveHashesDropsLeading(s: string)
    requires '#' !in s
    ensures RemoveHashes("#" + s) == s
  {
    assert ("#" + s)[1..] == s;
  }

  lemma RgbValue(r: nat, g: nat, b: nat)
    requires r < 256 && g < 256 && b < 256
    ensures HexValue(HexByte(r) + HexByte(g) + HexByte(b)) == r * 65536 + g * 256 + b
  {
    var hr, hg, hb := HexByte(r), HexByte(g), HexByte(b);
    HexByteValue(r);
    HexByteValue(g);
    HexByteValue(b);
    assert Pow16(2) == 256;
    HexValueAppend(hr, hg);
    assert HexValue(hr + hg) == r * 256 + g;
    HexValueAppend(hr + hg, hb);
    assert HexValue(hr + hg + hb) == (r * 256 + g) * 256 + b;
  }

  lemma ChannelsOf(r: nat, g: nat, b: nat)
    requires r < 256 && g < 256 && b < 256
    ensures Channel(r * 65536 + g * 256 + b, 16) == r
    ensures Channel(r * 65536 + g * 256 + b, 8) == g
    ensures Channel(r * 65536 + g * 256 + b, 0) == b
  {
    assert Pow2(8) == 256;
    assert Pow2(16) == 65536;
    var d := r * 65536 + g * 256 + b;
    assert d / 65536 == r;
    assert d / 256 == r * 256 + g;
    assert (r * 256 + g) % 256 == g;
  }

  /** A string of at most seven characters ending in six hex digits is accepted as a colour. */
  lemma EndsInSixHexDigits(s: string)
    requires 6 <= |s| <= 7 && AllHex(s[|s| - 6..])
    ensures IsHexadecimalColor(s)
  {
    assert Prefix7(s) == s;
    HexRunSpec(s, 6);
    assert HasHexRun(s);
  }

  /** The digits a formatted colour hands to `hexdec`. */
  lemma FormattedDigits(r: nat, g: nat, b: nat, hash: bool)
    requires r < 256 && g < 256 && b < 256
    ensures var s := FormatHexColor(r, g, b, hash);
      && Prefix7(s) == s
      && AllHex(s[|s| - 6..])
      && RemoveHashes(s) == HexByte(r) + HexByte(g) + HexByte(b)
  {
    var digits := HexByte(r) + HexByte(g) + HexByte(b);
    var s := FormatHexColor(r, g, b, hash);
    AllHexAppend(HexByte(r), HexByte(g));
    AllHexAppend(HexByte(r) + HexByte(g), HexByte(b));
    assert '#' !in digits;
    if hash {
      assert s == "#" + digits;
      RemoveHashesDropsLeading(digits);
    } else {
      assert s == digits;
    }
    assert s[|s| - 6..] == digits;
  }

  /** Formatting a colour as `RRGGBB` or `#RRGGBB` and parsing it back gives the colour and alpha 0. */
  lemma HexColorRoundTrip(r: nat, g: nat, b: nat, hash: bool)
    requires r < 256 && g < 256 && b < 256
    ensures GetRgbaValuesFromColor(PStr(FormatHexColor(r, g, b, hash)))
         == Ok([PInt(r), PInt(g), PInt(b), PInt(0)])
  {
    var s := FormatHexColor(r, g, b, hash);
    var digits := HexByte(r) + HexByte(g) + HexByte(b);
    FormattedDigits(r, g, b, hash);
    EndsInSixHexDigits(s);
    AllHexAppend(HexByte(r), HexByte(g));
    AllHexAppend(HexByte(r) + HexByte(g), HexByte(b));
    assert KeepHexDigits(digits) == digits;
    RgbValue(r, g, b);
    assert HexDec(RemoveHashes(Prefix7(s))) == r * 65536 + g * 256 + b;
    ChannelsOf(r, g, b);
    assert HexadecimalStringToRgbArray(s) == [PInt(r), PInt(g), PInt(b), PInt(0)];
  }

  // ---------------------------------------------------------------------
  // `hexdec` skips what is not a digit; `str_replace` drops only `#`.

  /** Filtering the digits of a concatenation filters each part. */
  lemma {:induction false} KeepHexDigitsAppend(a: string, b: string)
    ensures KeepHexDigits(a + b) == KeepHexDigits(a) + KeepHexDigits(b)
    decreases |a|
  {
    if |a| == 0 {
      assert a + b == b;
    } else {
      assert (a + b)[0] == a[0];
      assert (a + b)[1..] == a[1..] + b;
      KeepHexDigitsAppend(a[1..], b);
    }
  }

  /** One character is kept exactly when it is a hex digit. */
  lemma KeepHexDigitsOfChar(ch: char)
    ensures KeepHexDigits([ch]) == if IsHexDigit(ch) then [ch] else ""
  {
    assert [ch][1..] == "";
  }

  /** Removing `#` from a concatenation removes it from each part. */
  lemma {:induction false} RemoveHashesAppend(a: string, b: string)
    ensures RemoveHashes(a + b) == RemoveHashes(a) + RemoveHashes(b)
    decreases |a|
  {
    if |a| == 0 {
      assert a + b == b;
    } else {
      assert (a + b)[0] == a[0];
      assert (a + b)[1..] == a[1..] + b;
      RemoveHashesAppend(a[1..], b);
    }
  }

  /** One character survives exactly when it is not `#`. */
  lemma RemoveHashesOfChar(ch: char)
    ensures RemoveHashes([ch]) == if ch == '#' then "" else [ch]
  {
    assert [ch][1..] == "";
  }

  /** A character that is not a hex digit does not change what `hexdec` reads, wherever it stands. */
  lemma HexDecSkipsNonHex(a: string, ch: char, b: string)
    requires !IsHexDigit(ch)
    ensures HexDec(a + [ch] + b) == HexDec(a + b)
  {
    KeepHexDigitsAppend(a + [ch], b);
    KeepHexDigitsAppend(a, [ch]);
    KeepHexDigitsAppend(a, b);
    KeepHexDigitsOfChar(ch);
    assert KeepHexDigits(a) + "" == KeepHexDigits(a);
  }

  /** An accepted string whose digits read as `r·65536 + g·256 + b` parses to that colour. */
  lemma ParsesTo(s: string, r: nat, g: nat, b: nat)
    requires r < 256 && g < 256 && b < 256
    requires IsHexadecimalColor(s)
    requires HexDec(RemoveHashes(Prefix7(s))) == r * 65536 + g * 256 + b
    ensures GetRgbaValuesFromColor(PStr(s)) == Ok([PInt(r), PInt(g), PInt(b), PInt(0)])
  {
    ChannelsOf(r, g, b);
  }

  /** The six digits of a formatted colour, with the value they denote. */
  lemma ColorDigits(r: nat, g: nat, b: nat)
    requires r < 256 && g < 256 && b < 256
    ensures var digits := FormatHexColor(r, g, b, false);
      && |digits| == 6 && AllHex(digits) && '#' !in digits
      && IsHexadecimalColor(digits)
      && HexDec(digits) == r * 65536 + g * 256 + b
  {
    var digits := HexByte(r) + HexByte(g) + HexByte(b);
    FormattedDigits(r, g, b, false);
    AllHexAppend(HexByte(r), HexByte(g));
    AllHexAppend(HexByte(r) + HexByte(g), HexByte(b));
    assert FormatHexColor(r, g, b, false) == digits;
    assert digits[|digits| - 6..] == digits;
    EndsInSixHexDigits(digits);
    assert KeepHexDigits(digits) == digits;
    RgbValue(r, g, b);
  }

  /** A stray leading character that is neither a digit nor `#` leaves the colour as it was. */
  lemma LeadingJunkIsSkipped(r: nat, g: nat, b: nat, ch: char)
    requires r < 256 && g < 256 && b < 256
    requires !IsHexDigit(ch) && ch != '#'
    ensures GetRgbaValuesFromColor(PStr([ch] + FormatHexColor(r, g, b, false)))
         == Ok([PInt(r), PInt(g), PInt(b), PInt(0)])
  {
    var digits := FormatHexColor(r, g, b, false);
    ColorDigits(r, g, b);
    var s := [ch] + digits;
    assert Prefix7(s) == s;
    assert s[|s| - 6..] == digits;
    EndsInSixHexDigits(s);
    RemoveHashesAppend([ch], digits);
    RemoveHashesOfChar(ch);
    HexDecSkipsNonHex("", ch, digits);
    assert "" + [ch] + digits == s;
    assert "" + digits == digits;
    ParsesTo(s, r, g, b);
  }

  /** A trailing `#` after the six digits leaves the colour as it was. */
  lemma TrailingHashIsDropped(r: nat, g: nat, b: nat)
    requires r < 256 && g < 256 && b < 256
    ensures GetRgbaValuesFromColor(PStr(FormatHexColor(r, g, b, false) + "#"))
         == Ok([PInt(r), PInt(g), PInt(b), PInt(0)])
  {
    var digits := FormatHexColor(r, g, b, false);
    ColorDigits(r, g, b);
    var s := digits + "#";
    assert Prefix7(s) == s;
    assert Prefix7(digits) == digits;
    assert s[..|s| - 1] == digits;
    assert HasHexRun(s);
    RemoveHashesAppend(digits, "#");
    RemoveHashesOfChar('#');
    assert digits + "" == digits;
    ParsesTo(s, r, g, b);
  }

  // ---------------------------------------------------------------------
  // Behaviour the library's tests pin down.

  /** A three-element array gains a 4th value 0; a four-element one comes back value for value. */
  lemma ArraysKeepTheirValues(color: seq<Entry>)
    requires 3 <= |color| <= 4
    ensures var r := GetRgbaValuesFromColor(PArr(color));
      && r.Ok?
      && (forall k :: 0 <= k < |color| ==> r.value[k] == color[k].value)
      && (|color| == 3 ==> r.value[3] == PInt(0))
  {
  }

  /** A string is accepted exactly when its first seven characters hold six consecutive hex digits. */
  lemma {:induction false} StringAcceptedIffHexWindow(s: string)
    ensures GetRgbaValuesFromColor(PStr(s)).Ok? <==> HexWindow(Prefix7(s))
  {
    HasHexRunIsWindow(Prefix7(s));
    HasHexRunIsRegexMatch(Prefix7(s));
  }

  lemma TestedHexColors()
    ensures GetRgbaValuesFromColor(PStr("FF9900")) == Ok([PInt(255), PInt(153), PInt(0), PInt(0)])
    ensures GetRgbaValuesFromColor(PStr("#CCCCCC")) == Ok([PInt(204), PInt(204), PInt(204), PInt(0)])
  {
    TestedPlainHexColor();
    TestedHashedHexColor();
  }

  lemma TestedPlainHexColor()
    ensures GetRgbaValuesFromColor(PStr("FF9900")) == Ok([PInt(255), PInt(153), PInt(0), PInt(0)])
  {
    assert FormatHexColor(255, 153, 0, false) == "FF9900";
    HexColorRoundTrip(255, 153, 0, false);
  }

  lemma TestedHashedHexColor()
    ensures GetRgbaValuesFromColor(PStr("#CCCCCC")) == Ok([PInt(204), PInt(204), PInt(204), PInt(0)])
  {
    assert FormatHexColor(204, 204, 204, true) == "#CCCCCC";
    HexColorRoundTrip(204, 204, 204, true);
  }

  lemma TestedNonsense()
    ensures GetRgbaValuesFromColor(PStr("somenonsensestring")) == Err(UnparsableColor)
  {
    var t := Prefix7("somenonsensestring");
    assert t == "somenon";
    assert !IsHexDigit(t[1]) && !IsHexDigit(t[6]);
    forall j | 0 <= j && j + 6 <= |t|
      ensures !HexAt(t, j)
    {
      assert t[j..j + 6][1 - j] == t[1];
    }
    assert !HexWindow(t);
    StringAcceptedIffHexWindow("somenonsensestring");
  }

  lemma TestedArrayLengths()
    ensures GetRgbaValuesFromColor(ListOf([PInt(10), PInt(20)])) == Err(UnparsableColor)
    ensures GetRgbaValuesFromColor(ListOf([PInt(10), PInt(20), PInt(30), PInt(40), PInt(50)])) == Err(UnparsableColor)
    ensures GetRgbaValuesFromColor(ListOf([PInt(255), PInt(120), PInt(0)]))
         == Ok([PInt(255), PInt(120), PInt(0), PInt(0)])
  {
    var c := ListOf([PInt(255), PInt(120), PInt(0)]);
    assert |c.entries| == 3;
    assert Values(c.entries) == [PInt(255), PInt(120), PInt(0)];
    assert [PInt(255), PInt(120), PInt(0)] + [PInt(0)] == [PInt(255), PInt(120), PInt(0), PInt(0)];
    assert ParseArrayForRgbaValues(c.entries) == Some([PInt(255), PInt(120), PInt(0), PInt(0)]);
  }
}

=== FILE: decorator_factory.dfy ===
/** ImageDecorator\Factory: picks the decorator class for an image type and loads it. */
module DecoratorFactory {
  import opened Wrappers
  import opened Php
  import opened Errors
  import opened ImageDecorator
  import opened Files

  /** `getDecoratorForImageType`: JPEG, GIF and PNG have a decorator; any other tag, or null, throws. */
  function DecoratorForImageType(imageType: Option<int>): (r: Result<Variant, Error>)
    ensures r.Ok? <==> imageType.Some? && imageType.value in {ImageTypeJpeg, ImageTypeGif, ImageTypePng}
    ensures r.Ok? ==> r.value.Tag() == imageType.value
    ensures r.Err? ==> r.error == UnsupportedImageType && !r.error.IsInvalidArgument()
  {
    if imageType == Some(ImageTypeJpeg) then Ok(JPEG)
    else if imageType == Some(ImageTypeGif) then Ok(GIF)
    else if imageType == Some(ImageTypePng) then Ok(PNG)
    else Err(UnsupportedImageType)
  }

  /** Each decorator class is what the factory hands out for its own tag. */
  lemma DispatchInvertsTag(v: Variant)
    ensures DecoratorForImageType(Some(v.Tag())) == Ok(v)
  {
  }

  /**
   * `loadImageFromResource`: the tag is checked before the resource is
   * touched; the decorator then records the resource's size.
   */
  function LoadImageFromResource(resource: Raster, imageType: Option<int>, gdLoaded: bool): (r: Result<Image, Error>)
    ensures DecoratorForImageType(imageType).Err? ==> r == Err(UnsupportedImageType)
    ensures r.Ok? <==> DecoratorForImageType(imageType).Ok? && gdLoaded
    ensures r.Ok? ==> r.value.variant.Tag() == imageType.value
    ensures r.Ok? ==> r.value.width == resource.width && r.value.height == resource.height
  {
    var variant :- DecoratorForImageType(imageType);
    Load(variant, Some(resource), gdLoaded)
  }

  /**
   * `loadImageFromFile`: a missing file is an InvalidArgumentException before
   * anything is probed; a file getimagesize cannot read is the library's
   * Exception; otherwise the probed type goes through the same dispatch.
   */
  function LoadImageFromFile(path: string, fs: FileSystem, gdLoaded: bool): (r: Result<Image, Error>)
    ensures !FileExists(fs, path) ==> r == Err(ImageFileMissing) && r.error.IsInvalidArgument()
    ensures FileExists(fs, path) && ProbeImageType(fs, path).None? ==> r == Err(UnparsableImage)
    ensures FileExists(fs, path) && DecoratorForImageType(ProbeImageType(fs, path)).Err?
            ==> r == Err(if ProbeImageType(fs, path).None? then UnparsableImage else UnsupportedImageType)
    ensures r.Ok? <==> && FileExists(fs, path)
                       && DecoratorForImageType(ProbeImageType(fs, path)).Ok?
                       && gdLoaded && ReadImage(fs, path).Some?
    ensures r.Ok? ==> && r.value.variant.Tag() == ProbeImageType(fs, path).value
                      && r.value.width == ReadImage(fs, path).value.width
                      && r.value.height == ReadImage(fs, path).value.height
  {
    if !FileExists(fs, path) then Err(ImageFileMissing)
    else
      var data := ProbeImageType(fs, path);
      if data.None? then Err(UnparsableImage)
      else
        var variant :- DecoratorForImageType(data);
        Load(variant, ReadImage(fs, path), gdLoaded)
  }

  lemma TestedDispatch()
    ensures DecoratorForImageType(None) == Err(UnsupportedImageType)
    ensures DecoratorForImageType(Some(ImageTypeBmp)) == Err(UnsupportedImageType)
    ensures DecoratorForImageType(Some(ImageTypeJpeg)) == Ok(JPEG)
    ensures DecoratorForImageType(Some(ImageTypeGif)) == Ok(GIF)
    ensures DecoratorForImageType(Some(ImageTypePng)) == Ok(PNG)
  {
  }
}

=== FILE: errors.dfy ===
/** The exceptions the library raises, one constructor per distinct throw site. */
module Errors {

  datatype Error =
      // ColorParser: the value is neither an array nor a string
    | InvalidColorValue
      // ColorParser: an array or string that does not describe a colour
    | UnparsableColor
      // a Config setter refused its argument; `field` names the property
    | InvalidSetting(field: string)
      // AbstractDecorator::mount: the mount is smaller than the image
    | MountTooSmall
      // AbstractDecorator::setImage: what was loaded is not an image resource
    | NotAnImageResource
      // Factory::loadImageFromFile: no file at the path
    | ImageFileMissing
      // ThumbnailFactory::setInputDirectory / setOutputDirectory
    | NotADirectory
    | DirectoryNotWritable
      // AbstractDecorator::load: the GD extension is not loaded
    | GdUnavailable
      // Factory::loadImageFromFile: getimagesize could not read the file
    | UnparsableImage
      // Factory::getDecoratorForImageType: no decorator for the tag
    | UnsupportedImageType
      // ThumbnailFactory::getPathToInputImage
    | InputFilenameMissing
    | InputImageMissing
      // ThumbnailFactory::createThumbnail
    | OutputDirectoryUnset
      // a PHP fatal error: a call to a method the class does not define
    | UndefinedMethod(name: string)
  {

    /**
     * True for PHP's \InvalidArgumentException; `UndefinedMethod` is a fatal
     * error and the rest are BoxUK\Obscura\Exception.
     */
    predicate IsInvalidArgument() {
      || InvalidColorValue? || UnparsableColor? || InvalidSetting? || MountTooSmall?
      || NotAnImageResource? || ImageFileMissing? || NotADirectory? || DirectoryNotWritable?
    }
  }
}

=== FILE: files.dfy ===
/**
 * The filesystem as the library observes it: a map from path to entry.
 * Existence, readability, writability, modification time and what
 * getimagesize and the GD readers make of a file are all read from the entry.
 */
module Files {
  import opened Wrappers
  import opened ImageDecorator

  datatype Entry =
    | File(readable: bool, mtime: int, probedType: Option<int>, decoded: Option<Raster>)
    | Directory(readable: bool, writable: bool, mtime: int)

  datatype FileSystem = FileSystem(entries: map<string, Entry>)

  /** DIRECTORY_SEPARATOR on the platform modelled. */
  const Separator: char := '/'

  function Join(directory: string, name: string): string {
    directory + [Separator] + name
  }

  predicate FileExists(fs: FileSystem, path: string) {
    path in fs.entries
  }

  predicate IsReadable(fs: FileSystem, path: string) {
    path in fs.entries && fs.entries[path].readable
  }

  predicate IsDir(fs: FileSystem, path: string) {
    path in fs.entries && fs.entries[path].Directory?
  }

  predicate IsWritable(fs: FileSystem, path: string) {
    path in fs.entries && fs.entries[path].Directory? && fs.entries[path].writable
  }

  function FileMTime(fs: FileSystem, path: string): int
    requires FileExists(fs, path)
  {
    fs.entries[path].mtime
  }

  /** The image type getimagesize reports, or `None` for its false. */
  function ProbeImageType(fs: FileSystem, path: string): Option<int>
    requires FileExists(fs, path)
  {
    match fs.entries[path]
    case File(_, _, probedType, _) => probedType
    case Directory(_, _, _) => None
  }

  /** What the decorator's GD reader returns for the path; `None` for false. */
  function ReadImage(fs: FileSystem, path: string): Option<Raster>
    requires FileExists(fs, path)
  {
    match fs.entries[path]
    case File(_, _, _, decoded) => decoded
    case Directory(_, _, _) => None
  }
}

=== FILE: image_decorator.dfy ===
/**
 * The ImageDecorator interface with its three implementations reduced to
 * geometry: a decorator is the variant that encodes it plus the size of the
 * GD image it holds.  Pixels are not modelled.
 */
module ImageDecorator {
  import opened Wrappers
  import opened Php
  import opened Errors

  /** GD never hands out an image with a side of zero or less. */
  type Pos = x: int | x > 0 witness 1

  datatype Orientation = Landscape | Portrait | Square {
    /** The interface's ORIENTATION_XXX constant. */
    function Code(): int {
      match this
      case Landscape => 0
      case Portrait => 1
      case Square => 2
    }
  }

  /** The decorator classes JPEG, GIF and PNG. */
  datatype Variant = JPEG | GIF | PNG {
    /** `getImageType`. */
    function Tag(): int {
      match this
      case JPEG => ImageTypeJpeg
      case GIF => ImageTypeGif
      case PNG => ImageTypePng
    }

    /** `getMimeType`. */
    function MimeType(): string {
      match this
      case JPEG => "image/jpeg"
      case GIF => "image/gif"
      case PNG => "image/png"
    }
  }

  /** A GD image resource, known only by its size. */
  datatype Raster = Raster(width: Pos, height: Pos)

  /** A loaded decorator: its class and the width and height recorded by `load`. */
  datatype Image = Image(width: Pos, height: Pos, variant: Variant)

  /**
   * `imagecreatetruecolor`: GD refuses a non-positive size and returns
   * false, here `None`.
   */
  function NewCanvas(width: int, height: int): (canvas: Option<Raster>)
    ensures canvas.Some? <==> width > 0 && height > 0
    ensures canvas.Some? ==> canvas.value.width == width && canvas.value.height == height
  {
    if width > 0 && height > 0 then Some(Raster(width, height)) else None
  }

  /**
   * `AbstractDecorator::load`: fails when GD is missing, then when the thing
   * to load is not an image (setImage throws); otherwise the decorator takes
   * the image's width and height.  `resource` is the image or what reading
   * the path produced; `None` stands for false.
   */
  function Load(variant: Variant, resource: Option<Raster>, gdLoaded: bool): (r: Result<Image, Error>)
    ensures !gdLoaded ==> r == Err(GdUnavailable)
    ensures gdLoaded && resource.None? ==> r == Err(NotAnImageResource)
    ensures r.Ok? <==> gdLoaded && resource.Some?
    ensures r.Ok? ==> r.value == Image(resource.value.width, resource.value.height, variant)
  {
    if !gdLoaded then Err(GdUnavailable)
    else if resource.None? then Err(NotAnImageResource)
    else Ok(Image(resource.value.width, resource.value.height, variant))
  }
}

=== FILE: php.dfy ===
/**
 * The slice of PHP's dynamic values the library inspects: the argument of a
 * Config setter, a colour, an output filename.  Floats, objects and
 * resources never reach the modelled code paths and are left out.
 */
module Php {
  import opened Wrappers

  /** PHP's IMAGETYPE_XXX constants as returned by getimagesize. */
  const ImageTypeGif := 1
  const ImageTypeJpeg := 2
  const ImageTypePng := 3
  const ImageTypeBmp := 6

  datatype Key = IntKey(n: int) | StrKey(s: string)

  /** An array is its entries in insertion order. */
  datatype PhpValue =
    | PNull
    | PBool(b: bool)
    | PInt(i: int)
    | PStr(s: string)
    | PArr(entries: seq<Entry>)

  datatype Entry = Entry(key: Key, value: PhpValue)

  /** The array literal `array(v0, v1, ...)`: keys 0, 1, ... in order. */
  function ListOf(values: seq<PhpValue>): (a: PhpValue)
    ensures a.PArr? && |a.entries| == |values|
    ensures forall i :: 0 <= i < |values| ==> a.entries[i] == Entry(IntKey(i), values[i])
  {
    PArr(seq(|values|, i requires 0 <= i < |values| => Entry(IntKey(i), values[i])))
  }

  /** `array_values`: the values of the entries, keys dropped, order kept. */
  function Values(entries: seq<Entry>): (vs: seq<PhpValue>)
    ensures |vs| == |entries|
    ensures forall i :: 0 <= i < |entries| ==> vs[i] == entries[i].value
  {
    seq(|entries|, i requires 0 <= i < |entries| => entries[i].value)
  }

  /** PHP's `empty()`: null, false, 0, "", "0" and the empty array. */
  predicate Empty(v: PhpValue) {
    match v
    case PNull => true
    case PBool(b) => !b
    case PInt(i) => i == 0
    case PStr(s) => s == "" || s == "0"
    case PArr(entries) => |entries| == 0
  }

  /** PHP truthiness, the test an `if ($x)` performs. */
  predicate Truthy(v: PhpValue) {
    !Empty(v)
  }

  /** An int-or-null property as a PHP value. */
  function OptionalInt(o: Option<int>): PhpValue {
    match o
    case Some(i) => PInt(i)
    case None => PNull
  }

  /** Truthiness of an int-or-null property: null and 0 both count as unset. */
  predicate IsSet(o: Option<int>)
    ensures IsSet(o) <==> Truthy(OptionalInt(o))
  {
    o.Some? && o.value != 0
  }

  /** `intval` of an int-or-null, which is also what arithmetic does with null. */
  function IntVal(o: Option<int>): int {
    o.GetOr(0)
  }

  predicate IsDecimalDigit(c: char) {
    '0' <= c <= '9'
  }

  /** The decimal digits of a natural number, most significant first. */
  function Digits(n: nat): (s: string)
    ensures |s| > 0
    ensures forall k :: 0 <= k < |s| ==> IsDecimalDigit(s[k])
    decreases n
  {
    var last := ['0' + (n % 10) as char];
    if n < 10 then last else Digits(n / 10) + last
  }

  /** The string PHP makes of an int. */
  function DecimalString(i: int): (s: string)
    ensures |s| > 0
    ensures i >= 0 ==> forall k :: 0 <= k < |s| ==> IsDecimalDigit(s[k])
    ensures i < 0 ==> s[0] == '-'
  {
    if i < 0 then "-" + Digits(-i) else Digits(i)
  }

  /** String conversion, as in concatenation or a `%s` format. */
  function ToPhpString(v: PhpValue): string {
    match v
    case PNull => ""
    case PBool(b) => if b then "1" else ""
    case PInt(i) => DecimalString(i)
    case PStr(s) => s
    case PArr(_) => "Array"
  }

  /** `strlen`; an array yields null (with a warning), which compares as 0. */
  function StrLen(v: PhpValue): nat {
    if v.PArr? then 0 else |ToPhpString(v)|
  }

  /** `strlen` of a string-or-null property. */
  function StrLenOf(o: Option<string>): nat {
    match o
    case Some(s) => |s|
    case None => 0
  }

  /** Only null, false and "" have length 0; the int 0 prints as "0", which has length 1. */
  lemma StrLenOfScalar(v: PhpValue)
    requires !v.PArr?
    ensures StrLen(v) == 0 <==> v == PNull || v == PBool(false) || v == PStr("")
  {
  }
}

=== FILE: thumbnail_config.dfy ===
/**
 * ThumbnailFactory\Config: a bag of thumbnail parameters whose setters
 * check the PHP type (and for a few, the value) of their argument and throw
 * before storing anything.  Each setter here returns the updated config or
 * the error; the config it was called on is never altered.
 */
module ThumbnailConfig {
  import opened Wrappers
  import opened Php
  import opened Errors

  datatype Field =
    | Width | Height | AspectRatioLock | SizeConstraint
    | MountEnabled | MountWidth | MountHeight | MountColor
    | InputFilename | OutputFilename | ImageType | ImageQuality | CachingEnabled
  {
    /** The property name carried by the setter's error. */
    function Name(): string {
      match this
      case Width => "width"
      case Height => "height"
      case AspectRatioLock => "aspectRatioLock"
      case SizeConstraint => "sizeConstraint"
      case MountEnabled => "mountEnabled"
      case MountWidth => "mountWidth"
      case MountHeight => "mountHeight"
      case MountColor => "mountColor"
      case InputFilename => "inputFilename"
      case OutputFilename => "outputFilename"
      case ImageType => "imageType"
      case ImageQuality => "imageQuality"
      case CachingEnabled => "cachingEnabled"
    }
  }

  /**
   * The stored properties.  Int-or-null properties are `Option<int>`; the
   * mount colour and the output filename keep whatever PHP value was set.
   */
  datatype Config = Config(
    width: Option<int>,
    height: Option<int>,
    aspectRatioLock: bool,
    sizeConstraint: Option<int>,
    mountEnabled: bool,
    mountWidth: Option<int>,
    mountHeight: Option<int>,
    mountColor: PhpValue,
    inputFilename: Option<string>,
    outputFilename: PhpValue,
    imageType: Option<int>,
    imageQuality: int,
    cachingEnabled: bool)

  /** The getters: each returns its property as the PHP value the caller sees. */
  function Get(c: Config, f: Field): PhpValue {
    match f
    case Width => OptionalInt(c.width)
    case Height => OptionalInt(c.height)
    case AspectRatioLock => PBool(c.aspectRatioLock)
    case SizeConstraint => OptionalInt(c.sizeConstraint)
    case MountEnabled => PBool(c.mountEnabled)
    case MountWidth => OptionalInt(c.mountWidth)
    case MountHeight => OptionalInt(c.mountHeight)
    case MountColor => c.mountColor
    case InputFilename => if c.inputFilename.Some? then PStr(c.inputFilename.value) else PNull
    case OutputFilename => c.outputFilename
    case ImageType => OptionalInt(c.imageType)
    case ImageQuality => PInt(c.imageQuality)
    case CachingEnabled => PBool(c.cachingEnabled)
  }

  /** White, the mount colour a new config starts with. */
  function White(): PhpValue {
    ListOf([PInt(255), PInt(255), PInt(255)])
  }

  /** The initial value of each property as declared. */
  function InitialValue(f: Field): PhpValue {
    match f
    case AspectRatioLock => PBool(true)
    case MountEnabled => PBool(false)
    case MountColor => White()
    case ImageQuality => PInt(100)
    case CachingEnabled => PBool(false)
    case _ => PNull
  }

  /** `new Config`. */
  function New(): (c: Config)
    ensures forall f :: Get(c, f) == InitialValue(f)
  {
    Config(None, None, true, None, false, None, None, White(), None, PNull, None, 100, false)
  }

  /** The image types setImageType admits. */
  predicate SupportedImageType(t: int) {
    t == ImageTypeGif || t == ImageTypeJpeg || t == ImageTypePng
  }

  /** Which arguments each setter admits, property by property. */
  predicate Accepts(f: Field, v: PhpValue) {
    match f
    case Width | Height | SizeConstraint | MountWidth | MountHeight => v.PInt? || v.PNull?
    case AspectRatioLock | MountEnabled | CachingEnabled => v.PBool?
    case MountColor => (v.PArr? || v.PStr?) && !Empty(v)
    case InputFilename => v.PStr? && !Empty(v)
    case OutputFilename => true
    case ImageType => v.PInt? && SupportedImageType(v.i)
    case ImageQuality => v.PInt? && 0 <= v.i <= 100
  }

  /** Every property other than `f` reads the same in `c` and `c'`. */
  ghost predicate OthersUnchanged(c: Config, c': Config, f: Field) {
    forall g :: g != f ==> Get(c', g) == Get(c, g)
  }

  /**
   * What a setter promises: it succeeds exactly on the arguments it admits;
   * on success the getter returns the argument and nothing else changes;
   * otherwise it throws InvalidArgumentException naming the property.
   */
  ghost predicate SetterContract(c: Config, f: Field, v: PhpValue, r: Result<Config, Error>) {
    && (r.Ok? <==> Accepts(f, v))
    && (r.Ok? ==> Get(r.value, f) == v && OthersUnchanged(c, r.value, f))
    && (r.Err? ==> r.error == InvalidSetting(f.Name()) && r.error.IsInvalidArgument())
  }

  function AsOptionalInt(v: PhpValue): Option<int> {
    if v.PInt? then Some(v.i) else None
  }

  function SetWidth(c: Config, width: PhpValue): (r: Result<Config, Error>)
    ensures SetterContract(c, Width, width, r)
  {
    if !width.PInt? && !width.PNull? then Err(InvalidSetting(Width.Name()))
    else Ok(c.(width := AsOptionalInt(width)))
  }

  function SetHeight(c: Config, height: PhpValue): (r: Result<Config, Error>)
    ensures SetterContract(c, Height, height, r)
  {
    if !height.PInt? && !height.PNull? then Err(InvalidSetting(Height.Name()))
    else Ok(c.(height := AsOptionalInt(height)))
  }

  function SetAspectRatioLock(c: Config, lock: PhpValue): (r: Result<Config, Error>)
    ensures SetterContract(c, AspectRatioLock, lock, r)
  {
    if !lock.PBool? then Err(InvalidSetting(AspectRatioLock.Name()))
    else Ok(c.(aspectRatioLock := lock.b))
  }

  function SetSizeConstraint(c: Config, constraint: PhpValue): (r: Result<Config, Error>)
    ensures SetterContract(c, SizeConstraint, constraint, r)
  {
    if !constraint.PInt? && !constraint.PNull? then Err(InvalidSetting(SizeConstraint.Name()))
    else Ok(c.(sizeConstraint := AsOptionalInt(constraint)))
  }

  function SetMountEnabled(c: Config, mount: PhpValue): (r: Result<Config, Error>)
    ensures SetterContract(c, MountEnabled, mount, r)
  {
    if !mount.PBool? then Err(InvalidSetting(MountEnabled.Name()))
    else Ok(c.(mountEnabled := mount.b))
  }

  function SetMountWidth(c: Config, width: PhpValue): (r: Result<Config, Error>)
    ensures SetterContract(c, MountWidth, width, r)
  {
    if !width.PNull? && !width.PInt? then Err(InvalidSetting(MountWidth.Name()))
    else Ok(c.(mountWidth := AsOptionalInt(width)))
  }

  function SetMountHeight(c: Config, height: PhpValue): (r: Result<Config, Error>)
    ensures SetterContract(c, MountHeight, height, r)
  {
    if !height.PNull? && !height.PInt? then Err(InvalidSetting(MountHeight.Name()))
    else Ok(c.(mountHeight := AsOptionalInt(height)))
  }

  /** The colour is stored as given; it is parsed only when the mount is drawn. */
  function SetMountColor(c: Config, color: PhpValue): (r: Result<Config, Error>)
    ensures SetterContract(c, MountColor, color, r)
  {
    if (!color.PArr? && !color.PStr?) || Empty(color) then Err(InvalidSetting(MountColor.Name()))
    else Ok(c.(mountColor := color))
  }

  /** `empty()` also refuses the one-character name "0". */
  function SetInputFilename(c: Config, filename: PhpValue): (r: Result<Config, Error>)
    ensures SetterContract(c, InputFilename, filename, r)
  {
    if !filename.PStr? || Empty(filename) then Err(InvalidSetting(InputFilename.Name()))
    else Ok(c.(inputFilename := Some(filename.s)))
  }

  /**
   * The guard asks for a value that is a string and not a string at once,
   * so it never holds and every argument is stored.
   */
  function SetOutputFilename(c: Config, filename: PhpValue): (r: Result<Config, Error>)
    ensures SetterContract(c, OutputFilename, filename, r)
  {
    if !filename.PNull? && !filename.PStr? && (filename.PStr? && Empty(filename)) then
      Err(InvalidSetting(OutputFilename.Name()))
    else Ok(c.(outputFilename := filename))
  }

  function SetImageType(c: Config, imageType: PhpValue): (r: Result<Config, Error>)
    ensures SetterContract(c, ImageType, imageType, r)
  {
    if !imageType.PInt? || !SupportedImageType(imageType.i) then Err(InvalidSetting(ImageType.Name()))
    else Ok(c.(imageType := Some(imageType.i)))
  }

  function SetImageQuality(c: Config, quality: PhpValue): (r: Result<Config, Error>)
    ensures SetterContract(c, ImageQuality, quality, r)
  {
    if !quality.PInt? || quality.i < 0 || quality.i > 100 then Err(InvalidSetting(ImageQuality.Name()))
    else Ok(c.(imageQuality := quality.i))
  }

  function SetCachingEnabled(c: Config, caching: PhpValue): (r: Result<Config, Error>)
    ensures SetterContract(c, CachingEnabled, caching, r)
  {
    if !caching.PBool? then Err(InvalidSetting(CachingEnabled.Name()))
    else Ok(c.(cachingEnabled := caching.b))
  }

  /** Calls the setter of property `f`. */
  function Set(c: Config, f: Field, v: PhpValue): (r: Result<Config, Error>)
    ensures SetterContract(c, f, v, r)
  {
    match f
    case Width => SetWidth(c, v)
    case Height => SetHeight(c, v)
    case AspectRatioLock => SetAspectRatioLock(c, v)
    case SizeConstraint => SetSizeConstraint(c, v)
    case MountEnabled => SetMountEnabled(c, v)
    case MountWidth => SetMountWidth(c, v)
    case MountHeight => SetMountHeight(c, v)
    case MountColor => SetMountColor(c, v)
    case InputFilename => SetInputFilename(c, v)
    case OutputFilename => SetOutputFilename(c, v)
    case ImageType => SetImageType(c, v)
    case ImageQuality => SetImageQuality(c, v)
    case CachingEnabled => SetCachingEnabled(c, v)
  }

  /**
   * What a config built by New and the setters satisfies: every property
   * holds its initial value or a value its setter admits.
   */
  ghost predicate Valid(c: Config) {
    forall f :: Get(c, f) == InitialValue(f) || Accepts(f, Get(c, f))
  }

  /** The facts about a valid config that the thumbnail code relies on. */
  lemma ValidFacts(c: Config)
    requires Valid(c)
    ensures c.imageType.None? || SupportedImageType(c.imageType.value)
    ensures 0 <= c.imageQuality <= 100
    ensures (c.mountColor.PArr? || c.mountColor.PStr?) && !Empty(c.mountColor)
    ensures c.inputFilename.Some? ==> c.inputFilename.value != "" && c.inputFilename.value != "0"
  {
    assert Get(c, ImageType) == InitialValue(ImageType) || Accepts(ImageType, Get(c, ImageType));
    assert Get(c, ImageQuality) == InitialValue(ImageQuality) || Accepts(ImageQuality, Get(c, ImageQuality));
    assert Get(c, MountColor) == InitialValue(MountColor) || Accepts(MountColor, Get(c, MountColor));
    assert Get(c, InputFilename) == InitialValue(InputFilename) || Accepts(InputFilename, Get(c, InputFilename));
  }

  lemma NewIsValid()
    ensures Valid(New())
  {
  }

  /** Every setter keeps a config valid, whether it succeeds or not. */
  lemma SetPreservesValid(c: Config, f: Field, v: PhpValue)
    requires Valid(c)
    ensures Set(c, f, v).Ok? ==> Valid(Set(c, f, v).value)
  {
    var r := Set(c, f, v);
    if r.Ok? {
      forall g
        ensures Get(r.value, g) == InitialValue(g) || Accepts(g, Get(r.value, g))
      {
        if g != f {
          assert Get(r.value, g) == Get(c, g);
        }
      }
    }
  }

  /** A rejected value leaves the config exactly as it was. */
  function SetOrKeep(c: Config, f: Field, v: PhpValue): (c': Config)
    ensures !Accepts(f, v) ==> c' == c
    ensures Accepts(f, v) ==> Get(c', f) == v && OthersUnchanged(c, c', f)
  {
    match Set(c, f, v)
    case Ok(updated) => updated
    case Err(_) => c
  }

  /** Integer properties take any int, zero and negatives included. */
  lemma IntegerSettersTakeAnyInt(c: Config, i: int)
    ensures Set(c, Width, PInt(i)).Ok? && Set(c, Height, PInt(i)).Ok?
    ensures Set(c, SizeConstraint, PInt(i)).Ok?
    ensures Set(c, MountWidth, PInt(i)).Ok? && Set(c, MountHeight, PInt(i)).Ok?
  {
  }

  lemma SetOutputFilenameNeverThrows(c: Config, v: PhpValue)
    ensures SetOutputFilename(c, v) == Ok(c.(outputFilename := v))
  {
  }

  /** Values the library's tests try on the type-checked setters. */
  lemma TestedTypeChecks(c: Config)
    ensures Set(c, Width, PStr("foo")).Err? && Set(c, Height, PStr("foo")).Err?
    ensures Set(c, SizeConstraint, PStr("foo")).Err?
    ensures Set(c, AspectRatioLock, PStr("foo")).Err? && Set(c, MountEnabled, PStr("foo")).Err?
    ensures Set(c, Width, PInt(100)).Ok? && Set(c, Width, PNull).Ok?
  {
    assert !Accepts(Width, PStr("foo")) && !Accepts(Height, PStr("foo"));
  }

  /** Values the library's tests try on the mount colour and input filename. */
  lemma TestedColorsAndNames(c: Config)
    ensures Set(c, MountColor, PBool(false)).Err? && Set(c, MountColor, PStr("")).Err?
    ensures Set(c, MountColor, PNull).Err? && Set(c, MountColor, PArr([])).Err?
    ensures Set(c, MountColor, PStr("#000000")).Ok?
    ensures Set(c, MountColor, ListOf([PInt(0), PInt(0), PInt(0)])).Ok?
    ensures Set(c, InputFilename, PNull).Err? && Set(c, InputFilename, PBool(false)).Err?
    ensures Set(c, InputFilename, PStr("")).Err? && Set(c, InputFilename, PStr("foo.jpg")).Ok?
  {
    assert !Empty(PStr("#000000")) && !Empty(PStr("foo.jpg"));
  }

  /** Values the library's tests try on the image type and quality. */
  lemma TestedTypesAndQualities(c: Config)
    ensures Set(c, ImageType, PBool(false)).Err? && Set(c, ImageType, PNull).Err?
    ensures Set(c, ImageType, PInt(ImageTypeBmp)).Err? && Set(c, ImageType, PInt(ImageTypeGif)).Ok?
    ensures Set(c, ImageQuality, PInt(-1)).Err? && Set(c, ImageQuality, PBool(false)).Err?
    ensures Set(c, ImageQuality, PNull).Err? && Set(c, ImageQuality, PStr("foo")).Err?
    ensures Set(c, ImageQuality, PInt(0)).Ok? && Set(c, ImageQuality, PInt(100)).Ok?
  {
  }
}

=== FILE: thumbnail_factory.dfy ===
/**
 * ThumbnailFactory: the policy that turns a Config into a thumbnail.  It
 * finds the input image, decides whether a cached thumbnail can be reused,
 * crops or resizes, mounts, and has the decorator encode the result into
 * the output directory.
 */
module ThumbnailFactory {
  import opened Wrappers
  import opened Php
  import opened Errors
  import opened ImageDecorator
  import opened Files
  import opened ThumbnailConfig
  import opened AbstractDecorator
  import DecoratorFactory

  /** The factory's own state: where inputs are read from and thumbnails written to. */
  datatype Factory = Factory(inputDirectory: Option<string>, outputDirectory: Option<string>)

  /** A freshly constructed factory: neither directory is set. */
  function NewFactory(): Factory {
    Factory(None, None)
  }

  /** `setInputDirectory`: only an existing directory is accepted. */
  function SetInputDirectory(tf: Factory, directory: string, fs: FileSystem): (r: Result<Factory, Error>)
    ensures r.Ok? <==> IsDir(fs, directory)
    ensures r.Ok? ==> r.value.inputDirectory == Some(directory) && r.value.outputDirectory == tf.outputDirectory
    ensures r.Err? ==> r.error == NotADirectory && r.error.IsInvalidArgument()
  {
    if !IsDir(fs, directory) then Err(NotADirectory)
    else Ok(tf.(inputDirectory := Some(directory)))
  }

  /** `setOutputDirectory`: only an existing, writable directory is accepted. */
  function SetOutputDirectory(tf: Factory, directory: string, fs: FileSystem): (r: Result<Factory, Error>)
    ensures r.Ok? <==> IsDir(fs, directory) && IsWritable(fs, directory)
    ensures r.Ok? ==> r.value.outputDirectory == Some(directory) && r.value.inputDirectory == tf.inputDirectory
    ensures r.Err? ==> r.error == DirectoryNotWritable && r.error.IsInvalidArgument()
  {
    if !IsDir(fs, directory) || !IsWritable(fs, directory) then Err(DirectoryNotWritable)
    else Ok(tf.(outputDirectory := Some(directory)))
  }

  /** The paths `getPathToInputImage` tries, in order: the name as given, then inside the input directory. */
  function InputCandidates(tf: Factory, c: Config): seq<string>
    requires c.inputFilename.Some?
  {
    [c.inputFilename.value, Join(tf.inputDirectory.GetOr(""), c.inputFilename.value)]
  }

  predicate Usable(fs: FileSystem, path: string) {
    FileExists(fs, path) && IsReadable(fs, path)
  }

  /**
   * `getPathToInputImage`: an empty name throws; otherwise the first
   * candidate that exists and is readable; if neither is, it throws.
   */
  function PathToInputImage(tf: Factory, c: Config, fs: FileSystem): (r: Result<string, Error>)
    ensures StrLenOf(c.inputFilename) == 0 ==> r == Err(InputFilenameMissing)
    ensures r.Ok? ==> Usable(fs, r.value) && r.value in InputCandidates(tf, c)
    ensures StrLenOf(c.inputFilename) > 0 && Usable(fs, c.inputFilename.value) ==> r == Ok(c.inputFilename.value)
    ensures StrLenOf(c.inputFilename) > 0
            ==> (r.Ok? <==> exists k :: 0 <= k < 2 && Usable(fs, InputCandidates(tf, c)[k]))
    ensures r.Err? ==> !r.error.IsInvalidArgument()
  {
    if StrLenOf(c.inputFilename) == 0 then Err(InputFilenameMissing)
    else
      var name := c.inputFilename.value;
      if Usable(fs, name) then Ok(name)
      else
        var path := Join(tf.inputDirectory.GetOr(""), name);
        if Usable(fs, path) then Ok(path) else Err(InputImageMissing)
  }

  /** `thumbnailExistsAndIsFresh`: the thumbnail exists and is strictly newer than the input. */
  predicate ThumbnailExistsAndIsFresh(fs: FileSystem, input: string, thumbnail: string)
    requires FileExists(fs, input)
  {
    FileExists(fs, thumbnail) && FileMTime(fs, input) < FileMTime(fs, thumbnail)
  }

  /** The index of the last '.' in `s`, if it has one. */
  function LastDot(s: string): (i: Option<nat>)
    ensures i.Some? ==> i.value < |s| && s[i.value] == '.'
    ensures i.Some? ==> forall j :: i.value < j < |s| ==> s[j] != '.'
    ensures i.None? <==> forall j :: 0 <= j < |s| ==> s[j] != '.'
  {
    if |s| == 0 then None
    else if s[|s| - 1] == '.' then Some(|s| - 1)
    else LastDot(s[..|s| - 1])
  }

  /**
   * `getExtensionForThumbnail`: the conventional extension of a requested
   * JPEG, GIF or PNG type; otherwise the input name from its last '.'
   * onwards; otherwise nothing (PHP's null, which formats as "").
   */
  function ExtensionForThumbnail(c: Config): (ext: string)
    ensures c.imageType == Some(ImageTypeJpeg) ==> ext == ".jpg"
    ensures c.imageType == Some(ImageTypeGif) ==> ext == ".gif"
    ensures c.imageType == Some(ImageTypePng) ==> ext == ".png"
    ensures c.imageType.None? || !SupportedImageType(c.imageType.value) ==>
      if c.inputFilename.Some? && '.' in c.inputFilename.value then
        && |ext| > 0 && ext[0] == '.' && '.' !in ext[1..]
        && |ext| <= |c.inputFilename.value|
        && c.inputFilename.value[|c.inputFilename.value| - |ext|..] == ext
      else ext == ""
  {
    if IsSet(c.imageType) && c.imageType.value == ImageTypeJpeg then ".jpg"
    else if IsSet(c.imageType) && c.imageType.value == ImageTypeGif then ".gif"
    else if IsSet(c.imageType) && c.imageType.value == ImageTypePng then ".png"
    else if c.inputFilename.Some? && LastDot(c.inputFilename.value).Some? then
      c.inputFilename.value[LastDot(c.inputFilename.value).value..]
    else ""
  }

  /**
   * `getFilenameForThumbnail`: an output filename of non-zero length is
   * used as it is (whatever PHP value it is); otherwise a name derived from
   * a digest of the whole configuration and the extension.
   */
  function FilenameForThumbnail(c: Config, digest: Config -> string): (name: PhpValue)
    ensures StrLen(c.outputFilename) > 0 ==> name == c.outputFilename
    ensures StrLen(c.outputFilename) == 0 ==>
      && name.PStr? && |name.s| >= 6 && name.s[..6] == "thumb-"
      && name.s[6..] == digest(c) + ExtensionForThumbnail(c)
    ensures StrLen(name) > 0
  {
    if StrLen(c.outputFilename) > 0 then c.outputFilename
    else PStr("thumb-" + digest(c) + ExtensionForThumbnail(c))
  }

  /**
   * `resizeThumbnail`.  Nothing set: no change.  Width and height both set:
   * exactly those.  A size constraint goes to the longest edge and, for a
   * landscape or portrait image, turns the aspect lock on.  With the lock
   * on, the set dimension fixes the other as its proportional size.
   * Zero counts as unset throughout.
   */
  function ResizeThumbnail(img: Image, c: Config): (r: Result<Image, Error>)
    ensures !IsSet(c.width) && !IsSet(c.height) && !IsSet(c.sizeConstraint) ==> r == Ok(img)
    ensures IsSet(c.width) && IsSet(c.height) ==>
      && (r.Ok? <==> c.width.value > 0 && c.height.value > 0)
      && (r.Ok? ==> r.value == Image(c.width.value, c.height.value, img.variant))
    ensures r.Ok? ==> r.value.variant == img.variant
    ensures r.Err? ==> r.error == NotAnImageResource
  {
    var width, height, constraint := c.width, c.height, c.sizeConstraint;
    if !IsSet(width) && !IsSet(height) && !IsSet(constraint) then Ok(img)
    else if IsSet(width) && IsSet(height) then Resize(img, width, height, false)
    else
      var (w, h, lock) :=
        if IsSet(constraint) then
          match GetOrientation(img)
          case Landscape => (constraint, None, true)
          case Portrait => (None, constraint, true)
          case Square => (constraint, constraint, c.aspectRatioLock)
        else (width, height, c.aspectRatioLock);
      if lock then
        if IsSet(h) then Resize(img, Some(ProportionalSize(h.value, img.height, img.width)), h, false)
        else Resize(img, w, Some(ProportionalSize(IntVal(w), img.width, img.height)), false)
      else Resize(img, w, h, false)
  }

  /**
   * With a positive size constraint, and not both width and height set, the
   * thumbnail's longest edge is the constraint and its shorter edge is no
   * longer; the orientation is kept.  Whatever the configured lock, a
   * landscape or portrait image is resized with the lock on, so the shorter
   * edge is the proportional size of the longer one.
   */
  lemma ConstraintFixesLongestEdge(img: Image, c: Config)
    requires IsSet(c.sizeConstraint) && c.sizeConstraint.value > 0
    requires !(IsSet(c.width) && IsSet(c.height))
    ensures ResizeThumbnail(img, c).Ok?
    ensures var t := ResizeThumbnail(img, c).value;
      && LongestEdge(t) == c.sizeConstraint.value
      && (GetOrientation(img) == Square ==> GetOrientation(t) == Square)
      && (GetOrientation(img) == Landscape ==> t.width == c.sizeConstraint.value)
      && (GetOrientation(img) == Portrait ==> t.height == c.sizeConstraint.value)
    ensures var t, k := ResizeThumbnail(img, c).value, c.sizeConstraint.value;
      && (GetOrientation(img) == Landscape ==> t == Image(k, ProportionalSize(k, img.width, img.height), img.variant))
      && (GetOrientation(img) == Portrait ==> t == Image(ProportionalSize(k, img.height, img.width), k, img.variant))
      && (GetOrientation(img) == Square ==> t == Image(k, k, img.variant))
  {
    var k := c.sizeConstraint.value;
    match GetOrientation(img)
    case Landscape =>
      ProportionalSizeOfShorterSide(k, img.width, img.height);
    case Portrait =>
      ProportionalSizeOfShorterSide(k, img.height, img.width);
    case Square =>
      ProportionalSizeOfSame(img.height, k);
  }

  /**
   * Aspect lock on, no constraint, only the width set: the width is taken
   * and the height is its proportional size (the least height that does
   * not squash the image).
   */
  lemma LockedWidthScalesHeight(img: Image, c: Config)
    requires !IsSet(c.sizeConstraint) && c.aspectRatioLock
    requires IsSet(c.width) && !IsSet(c.height)
    ensures var r := ResizeThumbnail(img, c);
      && (r.Ok? <==> c.width.value > 0)
      && (r.Ok? ==> r.value.width == c.width.value
                    && img.width * (r.value.height - 1) < c.width.value * img.height <= img.width * r.value.height)
  {
    var w := c.width.value;
    if w > 0 {
      ProportionalSizePositive(w, img.width, img.height);
    } else {
      var h := ProportionalSize(w, img.width, img.height);
      assert w * img.height <= 0;
      ScaleCancels(img.width, h - 1, 0);
    }
  }

  /** The same with only the height set: the width follows. */
  lemma LockedHeightScalesWidth(img: Image, c: Config)
    requires !IsSet(c.sizeConstraint) && c.aspectRatioLock
    requires !IsSet(c.width) && IsSet(c.height)
    ensures var r := ResizeThumbnail(img, c);
      && (r.Ok? <==> c.height.value > 0)
      && (r.Ok? ==> r.value.height == c.height.value
                    && img.height * (r.value.width - 1) < c.height.value * img.width <= img.height * r.value.width)
  {
    var h := c.height.value;
    if h > 0 {
      ProportionalSizePositive(h, img.height, img.width);
    } else {
      var w := ProportionalSize(h, img.height, img.width);
      assert h * img.width <= 0;
      ScaleCancels(img.height, w - 1, 0);
    }
  }

  /**
   * Aspect lock off, no constraint, one dimension set: an absent other
   * dimension keeps its current length, while a zero one reaches the canvas
   * as zero and the resize fails.
   */
  lemma UnlockedKeepsOtherDimension(img: Image, c: Config)
    requires !IsSet(c.sizeConstraint) && !c.aspectRatioLock
    ensures IsSet(c.width) && c.height.None? ==>
      ResizeThumbnail(img, c) == if c.width.value > 0 then Ok(img.(width := c.width.value)) else Err(NotAnImageResource)
    ensures IsSet(c.height) && c.width.None? ==>
      ResizeThumbnail(img, c) == if c.height.value > 0 then Ok(img.(height := c.height.value)) else Err(NotAnImageResource)
    ensures IsSet(c.width) && c.height == Some(0) ==> ResizeThumbnail(img, c).Err?
    ensures IsSet(c.height) && c.width == Some(0) ==> ResizeThumbnail(img, c).Err?
  {
  }

  /**
   * `cropThumbnail`: crops to whichever of width and height are set; with
   * neither, no change.  The constraint and the aspect lock play no part.
   */
  function CropThumbnail(img: Image, c: Config): (r: Result<Image, Error>)
    ensures var w := if IsSet(c.width) then c.width.value else img.width;
            var h := if IsSet(c.height) then c.height.value else img.height;
      && (r.Ok? <==> w > 0 && h > 0)
      && (r.Ok? ==> r.value == Image(w, h, img.variant))
      && (r.Err? ==> r.error == NotAnImageResource)
    ensures !IsSet(c.width) && !IsSet(c.height) ==> r == Ok(img)
  {
    if IsSet(c.width) && IsSet(c.height) then Crop(img, c.width, c.height)
    else if IsSet(c.width) then Crop(img, c.width, None)
    else if IsSet(c.height) then Crop(img, None, c.height)
    else Ok(img)
  }

  /**
   * The mount size `mountThumbnail` settles on: both mount dimensions when
   * both are set; a square of the longer edge when neither is and the image
   * is not square; otherwise each unset one is the image's own.
   */
  function MountSize(img: Image, mountWidth: Option<int>, mountHeight: Option<int>): (size: (int, int))
    ensures IsSet(mountWidth) && IsSet(mountHeight) ==> size == (mountWidth.value, mountHeight.value)
    ensures !IsSet(mountWidth) && !IsSet(mountHeight) ==> size == (LongestEdge(img), LongestEdge(img))
    ensures IsSet(mountWidth) && !IsSet(mountHeight) ==> size == (mountWidth.value, img.height)
    ensures !IsSet(mountWidth) && IsSet(mountHeight) ==> size == (img.width, mountHeight.value)
  {
    if IsSet(mountWidth) && IsSet(mountHeight) then (mountWidth.value, mountHeight.value)
    else
      var (mw, mh) :=
        if !IsSet(mountWidth) && !IsSet(mountHeight) then
          match GetOrientation(img)
          case Landscape => (Some(img.width), Some(img.width))
          case Portrait => (Some(img.height), Some(img.height))
          case Square => (mountWidth, mountHeight)
        else (mountWidth, mountHeight);
      (if IsSet(mw) then mw.value else img.width, if IsSet(mh) then mh.value else img.height)
  }

  /** `mountThumbnail`: disabled, no change; otherwise mount at the settled size in the configured colour. */
  function MountThumbnail(img: Image, c: Config): (r: Result<Image, Error>)
    ensures !c.mountEnabled ==> r == Ok(img)
    ensures c.mountEnabled && r.Ok? ==> (r.value.width, r.value.height) == MountSize(img, c.mountWidth, c.mountHeight)
    ensures r.Ok? ==> r.value.variant == img.variant
    ensures r.Err? ==> r.error.IsInvalidArgument()
  {
    if !c.mountEnabled then Ok(img)
    else
      var (w, h) := MountSize(img, c.mountWidth, c.mountHeight);
      Mount(img, w, h, c.mountColor)
  }

  /**
   * A mount whose unset dimensions are defaulted always fits: with at most
   * one dimension given, and that one no smaller than the image, only the
   * colour can make mounting fail.
   */
  lemma DefaultedMountFits(img: Image, c: Config)
    requires c.mountEnabled && !(IsSet(c.mountWidth) && IsSet(c.mountHeight))
    requires IsSet(c.mountWidth) ==> c.mountWidth.value >= img.width
    requires IsSet(c.mountHeight) ==> c.mountHeight.value >= img.height
    ensures MountThumbnail(img, c).Ok? <==> ColorParser.GetRgbaValuesFromColor(c.mountColor).Ok?
  {
  }

  /** What `createThumbnail` reads from outside the library. */
  datatype Env = Env(
    fs: FileSystem,
    gdLoaded: bool,
    digest: Config -> string,   // md5(serialize($config))
    encodeOk: bool,             // whether the GD encoder reports success
    now: int)                   // the modification time a write stamps

  /** The encoding `output` performs: where, which decorator's encoder, at what quality. */
  datatype Write = Write(path: string, image: Image, quality: int)

  /** What a call returns (the filename or false) and what it writes. */
  datatype Outcome = Outcome(returned: PhpValue, write: Option<Write>, fs: FileSystem)

  /** The filesystem after a successful write. */
  function Store(fs: FileSystem, w: Write, now: int): (fs': FileSystem)
    ensures fs'.entries.Keys == fs.entries.Keys + {w.path}
    ensures FileExists(fs', w.path) && FileMTime(fs', w.path) == now
    ensures forall p :: p in fs.entries && p != w.path ==> fs'.entries[p] == fs.entries[p]
  {
    FileSystem(fs.entries[w.path := File(true, now, Some(w.image.variant.Tag()), Some(Raster(w.image.width, w.image.height)))])
  }

  /** Where a thumbnail with this configuration goes. */
  function ThumbnailPath(tf: Factory, c: Config, digest: Config -> string): string
    requires tf.outputDirectory.Some?
  {
    Join(tf.outputDirectory.value, ToPhpString(FilenameForThumbnail(c, digest)))
  }

  /**
   * The state of `createThumbnail` once the cache has been consulted: a
   * reusable thumbnail, or the loaded image still to be processed.
   */
  datatype Prepared =
    | Cached(filename: PhpValue)
    | Fresh(image: Image, filename: PhpValue, thumbnailPath: string)

  /**
   * The part of `createThumbnail` up to the cache check: resolve the input,
   * insist on an output directory, load the image, name the thumbnail, and
   * reuse it when caching is on and it is fresh.
   */
  function Prepare(tf: Factory, c: Config, env: Env): (r: Result<Prepared, Error>)
    ensures PathToInputImage(tf, c, env.fs).Err? ==> r == Err(PathToInputImage(tf, c, env.fs).error)
    ensures PathToInputImage(tf, c, env.fs).Ok? && StrLenOf(tf.outputDirectory) == 0 ==> r == Err(OutputDirectoryUnset)
    ensures r.Ok? ==> && PathToInputImage(tf, c, env.fs).Ok? && StrLenOf(tf.outputDirectory) > 0
                      && DecoratorFactory.LoadImageFromFile(PathToInputImage(tf, c, env.fs).value, env.fs, env.gdLoaded).Ok?
    ensures PathToInputImage(tf, c, env.fs).Ok? && StrLenOf(tf.outputDirectory) > 0 ==>
      var l := DecoratorFactory.LoadImageFromFile(PathToInputImage(tf, c, env.fs).value, env.fs, env.gdLoaded);
      && (l.Err? ==> r == Err(l.error))
      && (l.Ok? ==> r.Ok?)
      && (l.Ok? && !(c.cachingEnabled
                     && ThumbnailExistsAndIsFresh(env.fs, PathToInputImage(tf, c, env.fs).value, ThumbnailPath(tf, c, env.digest)))
          ==> r.Ok? && r.value.Fresh?)
    ensures r.Ok? && r.value.Cached? ==>
      && r.value.filename == FilenameForThumbnail(c, env.digest)
      && c.cachingEnabled
      && ThumbnailExistsAndIsFresh(env.fs, PathToInputImage(tf, c, env.fs).value, ThumbnailPath(tf, c, env.digest))
    ensures r.Ok? && r.value.Fresh? ==>
      && r.value.filename == FilenameForThumbnail(c, env.digest)
      && r.value.thumbnailPath == ThumbnailPath(tf, c, env.digest)
      && r.value.image == DecoratorFactory.LoadImageFromFile(PathToInputImage(tf, c, env.fs).value, env.fs, env.gdLoaded).value
      && !(c.cachingEnabled
           && ThumbnailExistsAndIsFresh(env.fs, PathToInputImage(tf, c, env.fs).value, ThumbnailPath(tf, c, env.digest)))
  {
    var input :- PathToInputImage(tf, c, env.fs);
    if StrLenOf(tf.outputDirectory) == 0 then Err(OutputDirectoryUnset)
    else
      var image :- DecoratorFactory.LoadImageFromFile(input, env.fs, env.gdLoaded);
      var filename := FilenameForThumbnail(c, env.digest);
      var thumbnailPath := Join(tf.outputDirectory.value, ToPhpString(filename));
      if c.cachingEnabled && ThumbnailExistsAndIsFresh(env.fs, input, thumbnailPath) then Ok(Cached(filename))
      else Ok(Fresh(image, filename, thumbnailPath))
  }

  /** Crop or resize, then mount: the transformation a fresh thumbnail undergoes. */
  function Transform(img: Image, c: Config, crop: bool): (r: Result<Image, Error>)
    ensures r.Ok? ==> r.value.variant == img.variant
    ensures r.Err? ==> r.error.IsInvalidArgument()
    ensures var s := if crop then CropThumbnail(img, c) else ResizeThumbnail(img, c);
      && (s.Err? ==> r == Err(s.error))
      && (s.Ok? ==> r == MountThumbnail(s.value, c))
  {
    var sized :- if crop then CropThumbnail(img, c) else ResizeThumbnail(img, c);
    MountThumbnail(sized, c)
  }

  /**
   * `createThumbnail`, with the crop decision supplied by the caller (see
   * the findings).  On a cache hit the filename comes back and nothing is
   * written; otherwise the image is transformed and encoded, and a failed
   * encoding returns false rather than throwing.
   */
  function CreateThumbnail(tf: Factory, c: Config, crop: bool, env: Env): (r: Result<Outcome, Error>)
    ensures PathToInputImage(tf, c, env.fs).Err? ==> r == Err(PathToInputImage(tf, c, env.fs).error)
    ensures PathToInputImage(tf, c, env.fs).Ok? && StrLenOf(tf.outputDirectory) == 0 ==> r == Err(OutputDirectoryUnset)
    ensures r.Ok? ==> r.value.returned == FilenameForThumbnail(c, env.digest) || r.value.returned == PBool(false)
    ensures r.Ok? && r.value.write.None? ==> r.value.fs == env.fs && r.value.returned == FilenameForThumbnail(c, env.digest)
    ensures r.Ok? && r.value.returned == PBool(false) ==> !env.encodeOk && r.value.fs == env.fs && r.value.write.Some?
    ensures r.Ok? && r.value.write.Some? ==>
      && r.value.write.value.path == ThumbnailPath(tf, c, env.digest)
      && r.value.write.value.quality == c.imageQuality
      && (c.imageType.Some? ==> r.value.write.value.image.variant.Tag() == c.imageType.value)
    ensures r.Ok? && r.value.write.Some? && env.encodeOk ==>
      r.value.fs == Store(env.fs, r.value.write.value, env.now)
    ensures r.Ok? && r.value.write.Some? ==> (r.value.returned == PBool(false) <==> !env.encodeOk)
    ensures r.Ok? && r.value.write.Some? && !env.encodeOk ==> r.value.fs == env.fs
    ensures Prepare(tf, c, env).Err? ==> r == Err(Prepare(tf, c, env).error)
    ensures Prepare(tf, c, env).Ok? && Prepare(tf, c, env).value.Cached? ==>
      r == Ok(Outcome(Prepare(tf, c, env).value.filename, None, env.fs))
    ensures r.Ok? && r.value.write.Some? ==>
      && Prepare(tf, c, env).Ok? && Prepare(tf, c, env).value.Fresh?
      && Transform(Prepare(tf, c, env).value.image, c, crop).Ok?
      && r.value.write.value.image.width == Transform(Prepare(tf, c, env).value.image, c, crop).value.width
      && r.value.write.value.image.height == Transform(Prepare(tf, c, env).value.image, c, crop).value.height
    ensures Prepare(tf, c, env).Ok? && Prepare(tf, c, env).value.Fresh? ==>
      var t := Transform(Prepare(tf, c, env).value.image, c, crop);
      && (t.Err? ==> r == Err(t.error))
      && (t.Ok? && Output(t.value, c.imageType, env.gdLoaded).Err? ==> r == Err(Output(t.value, c.imageType, env.gdLoaded).error))
      && (t.Ok? && Output(t.value, c.imageType, env.gdLoaded).Ok? ==> r.Ok? && r.value.write.Some?)
      && (t.Ok? && c.imageType.None? ==> r.Ok? && r.value.write == Some(Write(ThumbnailPath(tf, c, env.digest), t.value, c.imageQuality)))
  {
    var p :- Prepare(tf, c, env);
    match p
    case Cached(filename) => Ok(Outcome(filename, None, env.fs))
    case Fresh(image, filename, thumbnailPath) =>
      var thumbnail :- Transform(image, c, crop);
      var encoder :- Output(thumbnail, c.imageType, env.gdLoaded);
      var write := Write(thumbnailPath, encoder, c.imageQuality);
      if env.encodeOk then Ok(Outcome(filename, Some(write), Store(env.fs, write, env.now)))
      else Ok(Outcome(PBool(false), Some(write), env.fs))
  }

  /**
   * `createThumbnail` as the library has it: it asks the config for
   * `getCrop()`, a method Config does not define, once the cache check has
   * not returned.
   */
  function CreateThumbnailAsWritten(tf: Factory, c: Config, env: Env): (r: Result<Outcome, Error>)
    ensures r.Ok? ==> r.value.write.None? && r.value.fs == env.fs
    ensures Prepare(tf, c, env).Ok? && Prepare(tf, c, env).value.Fresh? ==> r == Err(UndefinedMethod("getCrop"))
  {
    var p :- Prepare(tf, c, env);
    match p
    case Cached(filename) => Ok(Outcome(filename, None, env.fs))
    case Fresh(_, _, _) => Err(UndefinedMethod("getCrop"))
  }

  /**
   * The discrepancy: whenever the corrected call would write a thumbnail,
   * the call as written dies instead; the two agree on errors before the
   * cache check and on cache hits.
   */
  lemma AsWrittenNeverWrites(tf: Factory, c: Config, crop: bool, env: Env)
    ensures var fixed, asWritten := CreateThumbnail(tf, c, crop, env), CreateThumbnailAsWritten(tf, c, env);
      && (fixed.Ok? && fixed.value.write.Some? ==> asWritten == Err(UndefinedMethod("getCrop")))
      && (fixed.Ok? && fixed.value.write.None? ==> asWritten == fixed)
      && (Prepare(tf, c, env).Err? ==> asWritten == fixed)
  {
  }

  /**
   * A cache hit: caching on and a thumbnail newer than the input make the
   * call return the filename without transforming or writing anything.
   */
  lemma CacheHitReturnsFilename(tf: Factory, c: Config, crop: bool, env: Env)
    requires c.cachingEnabled && StrLenOf(tf.outputDirectory) > 0
    requires PathToInputImage(tf, c, env.fs).Ok?
    requires DecoratorFactory.LoadImageFromFile(PathToInputImage(tf, c, env.fs).value, env.fs, env.gdLoaded).Ok?
    requires ThumbnailExistsAndIsFresh(env.fs, PathToInputImage(tf, c, env.fs).value, ThumbnailPath(tf, c, env.digest))
    ensures CreateThumbnail(tf, c, crop, env) == Ok(Outcome(FilenameForThumbnail(c, env.digest), None, env.fs))
  {
  }

  /**
   * Without a fresh thumbnail (caching off, no thumbnail, or one not newer
   * than the input) a successful call always writes.
   */
  lemma StaleThumbnailIsRegenerated(tf: Factory, c: Config, crop: bool, env: Env)
    requires PathToInputImage(tf, c, env.fs).Ok? && StrLenOf(tf.outputDirectory) > 0
    requires !(c.cachingEnabled
               && ThumbnailExistsAndIsFresh(env.fs, PathToInputImage(tf, c, env.fs).value, ThumbnailPath(tf, c, env.digest)))
    ensures CreateThumbnail(tf, c, crop, env).Ok? ==> CreateThumbnail(tf, c, crop, env).value.write.Some?
  {
  }

  /**
   * Asking twice: when the first call writes the thumbnail at a time later
   * than the input was modified, and the thumbnail does not land on a path
   * the input is looked up at, the second call is a cache hit.
   */
  lemma SecondCallIsCached(tf: Factory, c: Config, crop: bool, env: Env)
    requires c.cachingEnabled && env.encodeOk
    requires CreateThumbnail(tf, c, crop, env).Ok? && CreateThumbnail(tf, c, crop, env).value.write.Some?
    requires StrLenOf(c.inputFilename) > 0
    requires ThumbnailPath(tf, c, env.digest) !in InputCandidates(tf, c)
    requires env.now > FileMTime(env.fs, PathToInputImage(tf, c, env.fs).value)
    ensures var first := CreateThumbnail(tf, c, crop, env).value;
      CreateThumbnail(tf, c, crop, env.(fs := first.fs))
        == Ok(Outcome(first.returned, None, first.fs))
  {
    var first := CreateThumbnail(tf, c, crop, env).value;
    var env' := env.(fs := first.fs);
    var thumb := ThumbnailPath(tf, c, env.digest);
    var input := PathToInputImage(tf, c, env.fs).value;
    assert first.fs == Store(env.fs, first.write.value, env.now);
    var candidates := InputCandidates(tf, c);
    assert forall k :: 0 <= k < 2 ==> (Usable(env'.fs, candidates[k]) <==> Usable(env.fs, candidates[k]));
    assert PathToInputImage(tf, c, env'.fs) == PathToInputImage(tf, c, env.fs);
    assert env'.fs.entries[input] == env.fs.entries[input];
    assert DecoratorFactory.LoadImageFromFile(input, env'.fs, env.gdLoaded)
        == DecoratorFactory.LoadImageFromFile(input, env.fs, env.gdLoaded);
    assert ThumbnailExistsAndIsFresh(env'.fs, input, thumb);
    CacheHitReturnsFilename(tf, c, crop, env');
  }

  /** Cropping looks only at width and height: the constraint and the aspect lock make no difference. */
  lemma CropIgnoresConstraintAndLock(img: Image, c: Config, constraint: Option<int>, lock: bool)
    ensures Transform(img, c.(sizeConstraint := constraint, aspectRatioLock := lock), true) == Transform(img, c, true)
  {
  }

  /** A 400 by 200 input, as in the library's tests. */
  function Landscape400(v: Variant): Image {
    Image(400, 200, v)
  }

  /** The sizing the library's tests pin, on 400 by 200 and 200 by 400 inputs. */
  lemma TestedResizePolicy(v: Variant)
    ensures ResizeThumbnail(Landscape400(v), New().(width := Some(200))) == Ok(Image(200, 100, v))
    ensures ResizeThumbnail(Landscape400(v), New().(height := Some(100))) == Ok(Image(200, 100, v))
    ensures ResizeThumbnail(Landscape400(v), New().(width := Some(100), height := Some(300))) == Ok(Image(100, 300, v))
    ensures ResizeThumbnail(Landscape400(v), New().(sizeConstraint := Some(200))) == Ok(Image(200, 100, v))
    ensures ResizeThumbnail(Image(200, 400, v), New().(sizeConstraint := Some(200))) == Ok(Image(100, 200, v))
  {
  }

  /** The mounting the library's tests pin; the default colour is white, given as a three-element array. */
  lemma TestedMountPolicy(v: Variant)
    ensures var c := New().(mountEnabled := true);
      && MountThumbnail(Landscape400(v), c.(mountWidth := Some(600), mountHeight := Some(400))) == Ok(Image(600, 400, v))
      && MountThumbnail(Landscape400(v), c.(mountWidth := Some(600))) == Ok(Image(600, 200, v))
      && MountThumbnail(Landscape400(v), c.(mountHeight := Some(400))) == Ok(Image(400, 400, v))
      && MountThumbnail(Landscape400(v), c) == Ok(Image(400, 400, v))
      && MountThumbnail(Image(200, 400, v), c) == Ok(Image(400, 400, v))
  {
    assert White().PArr? && |White().entries| == 3;
    ColorParser.ArraysKeepTheirValues(White().entries);
  }

  /** The test fixture: an input and an output directory, and one 400 by 200 JPEG in the input directory. */
  function FixtureFs(): FileSystem {
    FileSystem(map[
      "in" := Directory(true, false, 0),
      "out" := Directory(true, true, 0),
      "in/a.jpg" := File(true, 10, Some(ImageTypeJpeg), Some(Raster(400, 200)))])
  }

  function FixtureEnv(digest: Config -> string, now: int): Env {
    Env(FixtureFs(), true, digest, true, now)
  }

  /** Width 200 with the lock on and a fixed output name: the test at ThumbnailFactoryTest.php:36-59. */
  lemma TestedCreateThumbnail(digest: Config -> string)
    ensures SetInputDirectory(NewFactory(), "in", FixtureFs()).Ok?
    ensures SetOutputDirectory(NewFactory(), "in", FixtureFs()) == Err(DirectoryNotWritable)
    ensures SetInputDirectory(NewFactory(), "missing", FixtureFs()) == Err(NotADirectory)
    ensures var tf := Factory(Some("in"), Some("out"));
            var c := New().(inputFilename := Some("a.jpg"), width := Some(200), outputFilename := PStr("t.jpg"));
      && CreateThumbnail(tf, c, false, FixtureEnv(digest, 20)).Ok?
      && CreateThumbnail(tf, c, false, FixtureEnv(digest, 20)).value.returned == PStr("t.jpg")
      && CreateThumbnail(tf, c, false, FixtureEnv(digest, 20)).value.write
           == Some(Write("out/t.jpg", Image(200, 100, JPEG), 100))
  {
    var tf := Factory(Some("in"), Some("out"));
    var c := New().(inputFilename := Some("a.jpg"), width := Some(200), outputFilename := PStr("t.jpg"));
    var env := FixtureEnv(digest, 20);
    assert !Usable(env.fs, "a.jpg");
    assert Join("in", "a.jpg") == "in/a.jpg";
    assert PathToInputImage(tf, c, env.fs) == Ok("in/a.jpg");
    assert DecoratorFactory.LoadImageFromFile("in/a.jpg", env.fs, true) == Ok(Image(400, 200, JPEG));
    assert ThumbnailPath(tf, c, digest) == "out/t.jpg";
    assert ResizeThumbnail(Image(400, 200, JPEG), c) == Ok(Image(200, 100, JPEG));
  }

  /**
   * The same call as the library writes it dies on `getCrop()`, and the
   * error-order tests: no input name throws first, then a missing output
   * directory.
   */
  lemma TestedCreateThumbnailAsWritten(digest: Config -> string)
    ensures var tf := Factory(Some("in"), Some("out"));
            var c := New().(inputFilename := Some("a.jpg"), width := Some(200), outputFilename := PStr("t.jpg"));
      CreateThumbnailAsWritten(tf, c, FixtureEnv(digest, 20)) == Err(UndefinedMethod("getCrop"))
    ensures CreateThumbnail(NewFactory(), New(), false, FixtureEnv(digest, 20)) == Err(InputFilenameMissing)
    ensures var c := New().(inputFilename := Some("a.jpg"), width := Some(200));
      CreateThumbnail(Factory(Some("in"), None), c, false, FixtureEnv(digest, 20)) == Err(OutputDirectoryUnset)
  {
    TestedAsWrittenDies(digest);
    TestedErrorOrder(digest);
  }

  /** The tested call, as written, dies on `getCrop()`. */
  lemma TestedAsWrittenDies(digest: Config -> string)
    ensures var tf := Factory(Some("in"), Some("out"));
            var c := New().(inputFilename := Some("a.jpg"), width := Some(200), outputFilename := PStr("t.jpg"));
      CreateThumbnailAsWritten(tf, c, FixtureEnv(digest, 20)) == Err(UndefinedMethod("getCrop"))
  {
    var tf := Factory(Some("in"), Some("out"));
    var c := New().(inputFilename := Some("a.jpg"), width := Some(200), outputFilename := PStr("t.jpg"));
    TestedCreateThumbnail(digest);
    AsWrittenNeverWrites(tf, c, false, FixtureEnv(digest, 20));
  }

  /** No input name fails first; a missing output directory fails next. */
  lemma TestedErrorOrder(digest: Config -> string)
    ensures CreateThumbnail(NewFactory(), New(), false, FixtureEnv(digest, 20)) == Err(InputFilenameMissing)
    ensures var c := New().(inputFilename := Some("a.jpg"), width := Some(200));
      CreateThumbnail(Factory(Some("in"), None), c, false, FixtureEnv(digest, 20)) == Err(OutputDirectoryUnset)
  {
    var c := New().(inputFilename := Some("a.jpg"), width := Some(200));
    assert Join("in", "a.jpg") == "in/a.jpg";
    assert PathToInputImage(Factory(Some("in"), None), c, FixtureFs()) == Ok("in/a.jpg");
  }
}

=== FILE: wrappers.dfy ===
/** Optional values and failure-compatible results, usable with `:-`. */
module Wrappers {

  /** A value that may be absent; in the PHP model `None` is `null`. */
  datatype Option<+T> = None | Some(value: T) {

    /** The wrapped value, or `default` when there is none. */
    function GetOr(default: T): T {
      match this
      case Some(v) => v
      case None => default
    }
  }

  /** Either a value or the exception the PHP code would have thrown. */
  datatype Result<+T, +E> = Ok(value: T) | Err(error: E) {

    predicate IsFailure() {
      Err?
    }

    function PropagateFailure<U>(): Result<U, E>
      requires Err?
    {
      Err(error)
    }

    function Extract(): T
      requires Ok?
    {
      value
    }
  }
}
